=== FILE: README.md ===
# Tabdila utilities: a Dafny model of the QR, binary and summary cores

Tabdila is a web toolbox. This project models four of its cores and proves properties about them.

- **The QR code generator's payload and options.** The form's content type and fields become the single string the code carries: a link or text as typed, a Wi-Fi network in the `WIFI:` form, an email as a `mailto:` URI, a phone number as a `tel:` URI. Every change reaches the options record through a shallow `{...prev, ...patch}` merge. The "scan quality" indicator maps the error-correction level to a caption, a colour and a bar width.
- **The QR code reader widget.** This is a state machine over the component's state and refs, fed by button presses, camera answers, animation frames, re-runs of the scan effect and file picks. The image decoder is an oracle.
- **The text ⇄ binary converter.** `textToBinary` writes each UTF-8 byte of a text as eight binary digits, separated by spaces. `binaryToText` cleans, splits, validates, parses and decodes the input. The module also covers the two input handlers and "clear all".
- **The rate limit in front of the summariser.** At most three accepted calls are allowed in a sliding ten-minute window, counted under one client key.

## Modules

| file | module | what it holds |
|---|---|---|
| `wrappers.dfy` | `Wrappers` | `Option` |
| `utf8.dfy` | `Utf8` | `TextEncoder`, per section 3 of RFC 3629 |
| | | `TextDecoder`, per the WHATWG Encoding Standard: U+FFFD replacement, leading U+FEFF dropped |
| `js_text.dfy` | `JsText` | JavaScript white space, `trim` |
| `uri_component.dfy` | `UriComponent` | `encodeURIComponent` |
| | | an independent percent-decoder, per section 2.1 of RFC 3986 |
| `qr_payload.dfy` | `QrPayload` | the payload `switch` |
| | | a reader of the `WIFI:` form |
| `qr_options.dfy` | `QrOptions` | the options record and the shallow merge |
| | | the two effects |
| | | the level select and the quality indicator |
| `binary_codec.dfy` | `BinaryCodec` | the converter and its two boxes |
| `qr_reader.dfy` | `QrReader` | the reader widget |
| `rate_limiter.dfy` | `RateLimiter` | the rate-limit prelude of `summarizeText` |

The reader has a `fixed` flag. `false` models the code as written. `true` models the corrected behaviour described under "## Findings".

## Model

| member | source | states |
|---|---|---|
| Utf8.EncodeChar | src/components/features/binary-converter.tsx:17-18 | Each character becomes one to four bytes. The count is fixed by its scalar value, as in the table of section 3 of RFC 3629. |
| Utf8.Encode | src/components/features/binary-converter.tsx:17-18 | The encoding is never shorter than the text. It is empty exactly when the text is empty. |
| Utf8.EncodeAppend | src/components/features/binary-converter.tsx:17-18 | Encoding distributes over concatenation. |
| Utf8.DecodeStream | src/components/features/binary-converter.tsx:49-50 | Decoding yields at most one character per byte. It is empty exactly when the input is empty. |
| Utf8.Decode | src/components/features/binary-converter.tsx:49-50 | Decoding never yields more characters than bytes. This includes when a leading byte order mark is dropped. |
| Utf8.DecodeStep | src/components/features/binary-converter.tsx:49-50 | One decoder step yields one character and consumes at least one byte and no more than are left. |
| Utf8.DecodeStepMaximalSubpart | src/components/features/binary-converter.tsx:49-50 | A step either consumes exactly the encoding of the character it yields, or yields U+FFFD for a maximal ill-formed subpart. That subpart is a lone offending byte or the start of some character's encoding, and the byte after it cannot extend it to the start of any encoding. So the byte that breaks a sequence starts the next step. |
| Utf8.ReplacementExamples | src/components/features/binary-converter.tsx:49-50 | The bytes E0 A0 41 decode to U+FFFD then `A`. The overlong C0 80 decodes to two U+FFFD. |
| Utf8.DecodeStepIsEncoding | src/components/features/binary-converter.tsx:49-50 | Each decoder step either yields U+FFFD or consumes exactly the bytes that encode the character it yields. |
| Utf8.DecodeStepEncodeChar | src/components/features/binary-converter.tsx:49-50 | The decoder reads an encoded character back in full, whatever bytes follow it. |
| Utf8.DecodeEncode | src/components/features/binary-converter.tsx:17-50 | Decoding the encoding of a text gives the text back, unless the text starts with U+FEFF. |
| Utf8.DecodeEncodeDropsMark | src/components/features/binary-converter.tsx:49-50 | A text that starts with U+FEFF comes back without that first character. |
| JsText.TrimStart | src/components/features/binary-converter.tsx:34 | Removes a blank prefix and nothing more: the result starts with a non-space or is empty. |
| JsText.TrimEnd | src/components/features/binary-converter.tsx:34 | Removes a blank suffix and nothing more: the result ends with a non-space or is empty. |
| JsText.Trim | src/components/features/binary-converter.tsx:34 | `trim()` never lengthens a text, and what it keeps neither starts nor ends with white space. TrimEmptyIffBlank and TrimNoOp pin down when it empties a text and when it leaves one unchanged. |
| JsText.TrimEmptyIffBlank | src/components/features/binary-converter.tsx:66 | `trim() === ''` holds exactly when every character is JavaScript white space. |
| JsText.TrimNoOp | src/components/features/binary-converter.tsx:34 | A text with no space at either end is left unchanged by trimming. |
| UriComponent.Encode | src/components/features/qr-code-generator.tsx:205 | The result consists only of unreserved characters and upper-case `%HH` triples. It is never shorter than the input. |
| UriComponent.DecodeEncode | src/components/features/qr-code-generator.tsx:205 | Percent-decoding and then UTF-8 decoding the result gives the subject or body back unchanged. |
| UriComponent.EncodedAlphabet | src/components/features/qr-code-generator.tsx:205 | Every character of an encoded field is unreserved or a `%`. So a space, a line break, `&`, `=` or `?` never appears raw in an encoded subject or body. The `mailto:` frame's own `?`, `&` and `=`, and the recipient, which is inserted as typed, are outside this guarantee. |
| UriComponent.EncodeUnreserved | src/components/features/qr-code-generator.tsx:205 | Text made only of unreserved characters is its own encoding. |
| UriComponent.EncodeAppend | src/components/features/qr-code-generator.tsx:205 | Encoding works character by character, so it distributes over concatenation. |
| UriComponent.EncodeSpace | src/components/features/qr-code-generator.tsx:205 | A space becomes `%20` wherever it stands. |
| UriComponent.EncodeLineFeed | src/components/features/qr-code-generator.tsx:205 | A line feed becomes `%0A` wherever it stands. |
| QrPayload.LinkAndTextVerbatim | src/components/features/qr-code-generator.tsx:196-197 | A link or a text is the payload unchanged, the empty string included. |
| QrPayload.Encode | src/components/features/qr-code-generator.tsx:193-207 | A link or a text is carried as typed. A Wi-Fi payload starts `WIFI:T:`. An email payload starts `mailto:<to>?subject=`. A phone payload is `tel:` followed by the number. |
| QrPayload.EmptyPayloadIff | src/components/features/qr-code-generator.tsx:193-207 | The payload is empty exactly for an empty link or an empty text. Wi-Fi, email and phone payloads always carry their scheme prefix. |
| QrPayload.WifiNoPassIgnoresPassword | src/components/features/qr-code-generator.tsx:199-200 | With `nopass` the payload is `WIFI:T:nopass;S:<ssid>;;`, whatever password the form holds. |
| QrPayload.WifiNoPassHasNoPasswordField | src/components/features/qr-code-generator.tsx:199-200 | A `nopass` payload contains no `P:` unless the network name itself does. |
| QrPayload.WifiWithPassword | src/components/features/qr-code-generator.tsx:201-202 | Any other encryption value gives `WIFI:T:<enc>;S:<ssid>;P:<password>;;`, with the fields inserted verbatim. |
| QrPayload.WifiExample | src/components/features/qr-code-generator.tsx:198-203 | ("Home", "secret1", WPA) gives `WIFI:T:WPA;S:Home;P:secret1;;`. ("X", "", nopass) gives `WIFI:T:nopass;S:X;;`. |
| QrPayload.WifiRoundTrip | src/components/features/qr-code-generator.tsx:198-203 | A reader of the `WIFI:` form recovers the encryption, the network name and (unless `nopass`) the password, provided no field holds a `;`. |
| QrPayload.WifiFieldsCollide | src/components/features/qr-code-generator.tsx:202 | Nothing is escaped, so two different networks can produce the same payload. |
| QrPayload.EmailPayload | src/components/features/qr-code-generator.tsx:205 | The payload is `mailto:<to>?subject=<es>&body=<eb>`. `<es>` and `<eb>` decode back to the subject and body and contain no raw reserved character. |
| QrPayload.PhoneVerbatim | src/components/features/qr-code-generator.tsx:206 | The payload is `tel:` followed by the number exactly as typed. |
| QrOptions.Merge | src/components/features/qr-code-generator.tsx:230-232 | Every field the patch carries is replaced. Every other field is kept. |
| QrOptions.MergeEmpty | src/components/features/qr-code-generator.tsx:230-232 | An empty patch changes nothing. |
| QrOptions.MergeIdempotent | src/components/features/qr-code-generator.tsx:230-232 | Applying the same patch twice is the same as applying it once. |
| QrOptions.MergeThen | src/components/features/qr-code-generator.tsx:230-232 | Two successive updates equal one update by the combined patch. |
| QrOptions.MergeIsShallow | src/components/features/qr-code-generator.tsx:230-232 | A nested record in a patch replaces the old one whole. A nested field the patch omits (the default type number) is lost. |
| QrOptions.DataPatch | src/components/features/qr-code-generator.tsx:208 | The content effect's patch carries the data field and no other. |
| QrOptions.SizePatch | src/components/features/qr-code-generator.tsx:213 | The size effect's patch carries width and height and no other field. |
| QrOptions.ContentEffect | src/components/features/qr-code-generator.tsx:193-210 | The content effect sets `data` to the payload of the form and leaves every other option as it was. |
| QrOptions.SizeEffect | src/components/features/qr-code-generator.tsx:212-215 | The size effect sets width and height to the slider's size and leaves every other option as it was. |
| QrOptions.EffectsCommute | src/components/features/qr-code-generator.tsx:193-215 | The content and size effects touch disjoint fields, so running them in either order gives the same options. |
| QrOptions.LatestContentWins | src/components/features/qr-code-generator.tsx:193-210 | A second content change overwrites the first: only the latest form's payload stays in `data`. |
| QrOptions.MountedOptions | src/components/features/qr-code-generator.tsx:176-215 | After mount, the options are the defaults, except that width and height are the slider's 180 instead of 256. The data is the default link. |
| QrOptions.LevelPatch | src/components/features/qr-code-generator.tsx:295 | The level select's patch carries only the nested QR settings: the current type number and mode, and the chosen level. |
| QrOptions.LevelChangeKeepsQrSettings | src/components/features/qr-code-generator.tsx:295 | Choosing a level sets it and keeps the type number and mode, because the handler copies them in. No other option changes. |
| QrOptions.IndexOf | src/components/features/qr-code-generator.tsx:62-67 | Returns the first position of a level in the select's list, or the list length when the level is absent. |
| QrOptions.ScanQuality | src/components/features/qr-code-generator.tsx:347-362 | The indicator follows the level's rank in L, M, Q, H, where an absent or unknown level ranks as L. The caption is کم, متوسط, خوب or عالی, the colour is red, yellow, blue or green, and the bar is 25% times one plus the rank. |
| QrOptions.QualityMonotone | src/components/features/qr-code-generator.tsx:347-362 | Of two levels, one's recoverable share (7/15/25/30%) is no larger than the other's exactly when its bar is no wider. |
| QrOptions.UnknownLevelIsLow | src/components/features/qr-code-generator.tsx:347-362 | An absent or unknown level is shown exactly like L: "کم", red, 25%. |
| BinaryCodec.ToBinary | src/components/features/binary-converter.tsx:21 | `n.toString(2)` is the shortest numeral: binary digits only, n < 2^len, and no leading zero unless it is the only digit. |
| BinaryCodec.ParseBase2 | src/components/features/binary-converter.tsx:46 | `parseInt(t, 2)` of a numeral of n binary digits is below 2^n. ParseToBinary and ByteBitsRoundTrip make it the inverse of `toString(2)`. |
| BinaryCodec.PadStart | src/components/features/binary-converter.tsx:21 | `padStart` prefixes fill characters up to the length and keeps the original as the suffix. |
| BinaryCodec.ByteBits | src/components/features/binary-converter.tsx:21 | Every byte's numeral is exactly eight characters long. ByteBitsRoundTrip adds that they are binary digits reading back as the byte. |
| BinaryCodec.ByteBitsRoundTrip | src/components/features/binary-converter.tsx:21 | Each byte becomes exactly eight binary digits, and parsing them in base 2 gives the byte back. |
| BinaryCodec.Numerals | src/components/features/binary-converter.tsx:20-21 | Gives one eight-digit numeral per byte, in order. |
| BinaryCodec.Join | src/components/features/binary-converter.tsx:22 | Joining no numerals gives the empty string. TokensOfJoin shows that splitting on white space undoes the join. |
| BinaryCodec.TextToBinary | src/components/features/binary-converter.tsx:12-22 | The output is empty exactly when the text is empty (line 13). Any other text gives a non-empty string of numerals. |
| BinaryCodec.TextToBinaryLayout | src/components/features/binary-converter.tsx:17-22 | For n UTF-8 bytes the output has 9n−1 characters. Group k is byte k's numeral, and a single space separates groups. |
| BinaryCodec.TextToBinaryAlphabet | src/components/features/binary-converter.tsx:17-22 | The output of a non-empty text holds only binary digits and spaces, and starts and ends with a digit. |
| BinaryCodec.KeepBinary | src/components/features/binary-converter.tsx:34 | Cleaning keeps only binary digits and white space, and never lengthens the input. |
| BinaryCodec.KeepBinaryChar | src/components/features/binary-converter.tsx:34 | A single character is kept exactly when it is a binary digit or white space. |
| BinaryCodec.KeepBinaryAppend | src/components/features/binary-converter.tsx:34 | Cleaning works character by character, keeping order: the cleaning of `a + b` is the cleaning of `a` followed by that of `b`. |
| BinaryCodec.KeepBinaryNoOp | src/components/features/binary-converter.tsx:34 | A string of digits and spaces passes cleaning unchanged. |
| BinaryCodec.Clean | src/components/features/binary-converter.tsx:34 | Trimming and cleaning never lengthens the input and leaves only binary digits and white space. A blank input cleans to the empty string. |
| BinaryCodec.Tokens | src/components/features/binary-converter.tsx:38 | Splitting on white space yields only non-empty words free of white space. |
| BinaryCodec.TokensOfWord | src/components/features/binary-converter.tsx:38 | A word with no white space is exactly one token. |
| BinaryCodec.TokensSplitAtSpace | src/components/features/binary-converter.tsx:38 | A white-space character separates tokens: the tokens of `a`, then those of `b`. Any run of white space counts as one separator, and empty pieces are dropped. |
| BinaryCodec.TokensConcat | src/components/features/binary-converter.tsx:38 | Splitting loses only white space: the tokens put back together are the input with its white space removed. |
| BinaryCodec.TokensOfJoin | src/components/features/binary-converter.tsx:38 | Splitting undoes joining words with single spaces. |
| BinaryCodec.TokensToBytes | src/components/features/binary-converter.tsx:41-46 | Gives no bytes exactly when some token is not 1–8 binary digits. Otherwise it gives one byte per token, equal to the token's base-2 value. |
| BinaryCodec.BinaryToText | src/components/features/binary-converter.tsx:33-35 | Input that is empty after cleaning converts to the empty text. |
| BinaryCodec.InvalidOnlyWhenTooLong | src/components/features/binary-converter.tsx:34-43 | After cleaning, validation fails exactly when some numeral has more than eight digits. |
| BinaryCodec.BinaryToTextOutcome | src/components/features/binary-converter.tsx:33-50 | The result is the fixed error message when a numeral is too long. Otherwise validation succeeds, and the result is the UTF-8 decoding of the bytes `TokensToBytes` gives: each numeral's base-2 value, in order. |
| BinaryCodec.NumeralsToBytes | src/components/features/binary-converter.tsx:41-46 | Validation accepts every numeral `textToBinary` writes, and parsing returns its byte. |
| BinaryCodec.CleanTextToBinary | src/components/features/binary-converter.tsx:34 | The output of `textToBinary` passes cleaning unchanged. |
| BinaryCodec.TokensOfTextToBinary | src/components/features/binary-converter.tsx:38 | Splitting the output of `textToBinary` gives the byte numerals back. |
| BinaryCodec.BinaryToTextOfEncoding | src/components/features/binary-converter.tsx:12-54 | Converting the output back decodes exactly the UTF-8 bytes of the text. |
| BinaryCodec.RoundTrip | src/components/features/binary-converter.tsx:12-54 | `binaryToText(textToBinary(s)) == s` for every text that does not begin with U+FEFF. |
| BinaryCodec.RoundTripDropsMark | src/components/features/binary-converter.tsx:12-54 | A text that begins with U+FEFF comes back without it. |
| BinaryCodec.OnTextChange | src/components/features/binary-converter.tsx:62-76 | The text box takes the new text. The binary box becomes `textToBinary` of it when it is not blank, and is emptied when it is blank. |
| BinaryCodec.OnBinaryChange | src/components/features/binary-converter.tsx:78-92 | The binary box takes the new input. The text box becomes `binaryToText` of it when it is not blank, and is emptied when it is blank. |
| BinaryCodec.ClearAll | src/components/features/binary-converter.tsx:102-105 | Both boxes end up empty. |
| BinaryCodec.BlankInputClearsOther | src/components/features/binary-converter.tsx:62-92 | A blank input in either box empties the other box without converting. |
| BinaryCodec.TextEditRoundTrips | src/components/features/binary-converter.tsx:62-76 | After a non-blank text edit, converting the binary box back gives the typed text. |
| BinaryCodec.BlankBinaryConvertsToEmpty | src/components/features/binary-converter.tsx:33-35 | Converting a blank binary input gives the same empty text that the short circuit writes. |
| BinaryCodec.BlankTextShortCircuitDiffers | src/components/features/binary-converter.tsx:66-69 | A single space would convert to `00100000`, but the handler leaves the binary box empty. |
| QrReader.StopScan | src/components/features/qr-code-reader.tsx:27-40 | Leaves the widget not scanning, with no frame pending, the stream stopped and the video source cleared. Nothing else changes. |
| QrReader.StopScanIdempotent | src/components/features/qr-code-reader.tsx:27-40 | Stopping twice is the same as stopping once. |
| QrReader.StartCamera | src/components/features/qr-code-reader.tsx:91-105 | A press clears the result and the error, stops any scan and issues a camera request. Without a camera interface it shows the unsupported error and refuses permission. |
| QrReader.Resolve | src/components/features/qr-code-reader.tsx:104-116 | A denial shows the camera error and stops everything. A grant records permission. As written, it always stores the stream, orphaning one already held. Fixed, it stores the stream only while scanning and when none is held. A stray answer changes nothing. No answer touches the effect's recorded scanning flag. |
| QrReader.ScanFrame | src/components/features/qr-code-reader.tsx:42-72 | A frame only runs if one is scheduled. Missing refs end the loop. A decoded frame sets the result, clears the error and releases the camera, leaving the permission, the open requests and the orphan count as they were. Any other frame changes nothing but keeps the loop going. |
| QrReader.RerunEffect | src/components/features/qr-code-reader.tsx:74-88 | The effect re-runs with the scanning flag the render saw. As written its cleanup stops the scan. Fixed, it only cancels the frame. Neither version changes the result, the error, the permission or the open requests. |
| QrReader.SelectFile | src/components/features/qr-code-reader.tsx:119-152 | A file pick stops the camera. The result is the decoded code, or "no code" when the image holds none. The permission, the pending camera requests, the orphaned-stream count and the effect's recorded scanning flag are unchanged. |
| QrReader.CopyResult | src/components/features/qr-code-reader.tsx:154-158 | Copies something exactly when the result is present and non-empty, and then copies the result. |
| QrReader.Settle | src/components/features/qr-code-reader.tsx:74-88 | After the effect catches up, no re-run is owed. As written this leaves no scan and no frame. Fixed, it keeps the scan and schedules a frame exactly when scanning. |
| QrReader.HitThenRerunReleasesAll | src/components/features/qr-code-reader.tsx:60-88 | A hit re-arms a frame (line 71), and the effect re-run it causes cancels that frame. The camera is released and the result is kept. |
| QrReader.StreamMatchesVideo | src/components/features/qr-code-reader.tsx:33-39 | The stream ref and the video source are set and cleared together, at every step. |
| QrReader.RunStreamMatchesVideo | src/components/features/qr-code-reader.tsx:33-39 | The same holds after any sequence of events. |
| QrReader.NoRecognitionWithoutGrant | src/components/features/qr-code-reader.tsx:46-64 | Without a granted camera answer or a file pick, the video never shows a stream and no new result appears. |
| QrReader.StreamStoredAfterStop | src/components/features/qr-code-reader.tsx:105-110 | As written: Start, Stop, grant leaves the camera on while not scanning. A double Start with two grants leaves one stream unreachable. |
| QrReader.FixedStepAccounts | src/components/features/qr-code-reader.tsx:105-110 | Fixed: each step keeps the stream released whenever not scanning, and never orphans one. |
| QrReader.FixedRunAccounts | src/components/features/qr-code-reader.tsx:105-110 | Fixed: the same holds over any sequence of events. |
| QrReader.FixedNeverLeaks | src/components/features/qr-code-reader.tsx:105-110 | Fixed: every run from the mounted widget accounts for its stream. |
| QrReader.StartNeverArmsFrame | src/components/features/qr-code-reader.tsx:82-87 | As written: once the effect catches up after a Start, no frame is scheduled. |
| QrReader.CameraNeverScans | src/components/features/qr-code-reader.tsx:74-88 | As written: from then on, no frame is ever scheduled and only a file pick can produce a result. |
| QrReader.FixedStartArmsFrame | src/components/features/qr-code-reader.tsx:74-88 | Fixed: a Start from a widget that is not scanning leaves the scan on and a frame scheduled. |
| QrReader.FixedCameraReads | src/components/features/qr-code-reader.tsx:42-110 | Fixed: Start, grant and one decodable frame produce the code as the result. |
| RateLimiter.Recent | src/ai/flows/summarize-text-flow.ts:30-32 | Keeps exactly the calls less than ten minutes old, and no more calls than it was given. |
| RateLimiter.RecentCounts | src/ai/flows/summarize-text-flow.ts:30-32 | Each recent call is kept as many times as it occurs, so two calls in the same millisecond both count towards the limit. Older calls are dropped entirely. |
| RateLimiter.RecentSingle | src/ai/flows/summarize-text-flow.ts:30-32 | A single call is kept exactly when it is less than ten minutes old. With RecentAppend, this fixes the filter and its order on every list. |
| RateLimiter.Stored | src/ai/flows/summarize-text-flow.ts:30 | The tracker's list for a key is what was stored under it, and the empty list for a key never stored. |
| RateLimiter.Admit | src/ai/flows/summarize-text-flow.ts:30-40 | Accepts exactly when fewer than three calls are recent. A refusal changes nothing. Other keys are never touched. |
| RateLimiter.SummarizeText | src/ai/flows/summarize-text-flow.ts:25-62 | The outcome is the limit message, the fixed failure message, or the server's summary. |
| RateLimiter.AcceptedKeepsWindow | src/ai/flows/summarize-text-flow.ts:38-40 | After an accepted call the key holds at most three times, all within the window, ending with this call's. |
| RateLimiter.QuotaSpentBeforeFetch | src/ai/flows/summarize-text-flow.ts:38-62 | A call spends its quota whatever the server answers. |
| RateLimiter.SummarizeOutcomes | src/ai/flows/summarize-text-flow.ts:34-62 | The limit message appears exactly when three calls are recent, and then nothing changes. Otherwise it is the summary or the one failure message. |
| RateLimiter.RecentAppend | src/ai/flows/summarize-text-flow.ts:30-32 | Filtering distributes over concatenation. |
| RateLimiter.RecentLater | src/ai/flows/summarize-text-flow.ts:30-32 | Filtering at one moment and again at a later moment equals filtering at the later moment. |
| RateLimiter.AdmitSummarises | src/ai/flows/summarize-text-flow.ts:30-40 | A call keeps the stored list an exact summary of the full log of accepted calls, from that call on. |
| RateLimiter.AtMostThreePerWindow | src/ai/flows/summarize-text-flow.ts:21-40 | For any calls at non-decreasing times, at most three accepted calls lie within any ten minutes ending at or after the last call. |

## Left out

- Drawing and downloading the QR code (`qr-code-generator.tsx:217-228`, `247-254`) is left out. It belongs to the rendering library.
- The logo upload (`234-245`) is left out because it needs file I/O. Only its patch's effect on the options is covered, through `QrOptions.Merge`.
- The colour, shape, image and transparency controls (`273-320`) are covered only through `QrOptions.Merge`. Only the level select's patch is modelled by name.
- The generator's "None" Wi-Fi option carries the value `nopass` (`qr-code-generator.tsx:138-140`). The model follows this value, since it is what the payload code compares against.
- The size slider's initial 180 overrides the default 256 when the page mounts. `QrOptions.MountedOptions` states this.
- `textToBinary`'s `charCodeAt` fallback (`binary-converter.tsx:23-28`) is left out. It runs only where `TextEncoder` is missing, and the model assumes it is present.
- `binaryToText`'s `catch` (`51-53`) is left out. It is unreachable: the non-fatal decoder never throws, and `parseInt` is given only validated numerals.
- JavaScript strings can hold lone surrogates, which a Dafny `char` cannot. `TextEncoder` would write them as U+FFFD. On a lone surrogate in the email subject or body, `encodeURIComponent` throws `URIError` (`qr-code-generator.tsx:205`). The model cannot reach that exception path.
- BinaryCodec.OnTextChange and BinaryCodec.OnBinaryChange drop the 100 ms `setTimeout` and the `isConverting` flag. They convert at once. The model does not cover a conversion scheduled before the box was blanked, which the blank short circuit does not cancel.
- Toasts, the clipboard write and the "copied" indicator are left out. They are user interface with no state this model tracks.
- QrReader: the decoder (`jsQR`), the camera, the canvas and the image loader are oracles. Each event carries their answer.
- QrReader: messages are tags instead of Persian strings.
- QrReader.ScanFrame folds a missing canvas context into `ready`. It does not model `drawImage` throwing at line 53, which lies outside the `try`.
- QrReader.SelectFile treats loading and decoding an image as one step. `NoImage` covers both no file and an image that never loads.
- QrReader.FixedStartArmsFrame holds only from a widget whose effect last ran while not scanning. A Start pressed during a scan stops it without a change of `isScanning` to re-run the effect, so no frame is scheduled, in the corrected code as in the original.
- RateLimiter.AtMostThreePerWindow assumes clock readings never decrease. `Date.now()` gives no such guarantee.
- RateLimiter.SummarizeText takes the fetch and its JSON as one answer: a summary or a failure. The server's own error text is replaced by the fixed failure message, as the `catch` at lines 59-62 does. The limit case is an exception in the source and a `Failed` outcome here.
- The input schema's length check and the API route (`src/app/api/summarize/route.ts`) are not part of this model. Neither is the page chrome, layout, loading screens or PWA components.

## Findings

| source | as written | input that shows it | evidently intended | confidence | as-written member | corrected member |
|---|---|---|---|---|---|---|
| src/components/features/qr-code-reader.tsx:105-110 | The awaited camera stream is stored and attached to the video on arrival. Nothing checks whether the scan is still wanted or whether a stream is already held. | Start, Stop, camera granted: the camera stays on while the widget is not scanning. Start, Start, granted, granted: the first stream is overwritten without being stopped. | Keep the stream only while scanning and when none is held; otherwise release it. | high; not executed | QrReader.StreamStoredAfterStop | QrReader.FixedNeverLeaks |
| src/components/features/qr-code-reader.tsx:82-87 | The scan effect's cleanup calls `stopScan`. `setIsScanning(true)` changes the effect's dependency, so the next render's cleanup turns scanning off and cancels the first frame. | Start, then the effect re-runs: no frame is scheduled, and a code held to the camera is never read. This matches the "camera ready, press to scan again" message at lines 206-212. | The cleanup only cancels the frame it scheduled. | medium (the model applies React state at once and re-runs the effect after each change); not executed | QrReader.CameraNeverScans | QrReader.FixedCameraReads |

=== FILE: binary_codec.dfy ===
/**
 The text/binary converter widget: `textToBinary` writes the UTF-8 bytes of a
 text as 8-digit binary numerals separated by single spaces, `binaryToText`
 reads such numerals back and decodes them as UTF-8, and the two text boxes
 keep each other up to date.
 */
module BinaryCodec {
  import opened Wrappers
  import opened JsText
  import Utf8

  type byte = Utf8.byte

  /** What `binaryToText` returns when a numeral is not 1 to 8 binary digits. */
  const InvalidBinaryMessage: string := "خطا: کد باینری معتبر نیست. هر بایت باید ۱ تا ۸ بیت باشد."

  /* ------------------------------ numerals ------------------------------ */

  predicate IsBit(c: char) {
    c == '0' || c == '1'
  }

  /** Every character of s is a binary digit. */
  predicate IsBits(s: string) {
    forall i :: 0 <= i < |s| ==> IsBit(s[i])
  }

  function Pow2(n: nat): (p: nat)
    ensures p >= 1
  {
    if n == 0 then 1 else 2 * Pow2(n - 1)
  }

  function BitChar(d: nat): (c: char)
    requires d < 2
    ensures IsBit(c)
  {
    if d == 0 then '0' else '1'
  }

  function BitValue(c: char): (d: nat)
    requires IsBit(c)
    ensures d < 2 && BitChar(d) == c
  {
    if c == '0' then 0 else 1
  }

  /** `n.toString(2)`: the shortest binary numeral for n, so "0" for zero and a
      leading "1" otherwise. */
  function ToBinary(n: nat): (s: string)
    ensures |s| >= 1 && IsBits(s)
    ensures n < Pow2(|s|)
    ensures |s| > 1 ==> Pow2(|s| - 1) <= n
    decreases n
  {
    if n < 2 then [BitChar(n)] else ToBinary(n / 2) + [BitChar(n % 2)]
  }

  /** `parseInt(t, 2)` for a numeral made only of binary digits, read most significant digit first. */
  function ParseBase2(t: string): (n: nat)
    requires IsBits(t)
    ensures n < Pow2(|t|)
  {
    if |t| == 0 then 0 else 2 * ParseBase2(t[..|t| - 1]) + BitValue(t[|t| - 1])
  }

  /** `s.padStart(len, fill)` for a one-character fill. */
  function PadStart(s: string, len: nat, fill: char): (r: string)
    ensures |r| == if |s| >= len then |s| else len
    ensures r[|r| - |s|..] == s
    ensures forall i :: 0 <= i < |r| - |s| ==> r[i] == fill
  {
    if |s| >= len then s else seq(len - |s|, _ => fill) + s
  }

  /** `byte.toString(2).padStart(8, '0')`. */
  function ByteBits(b: byte): (s: string)
    ensures |s| == 8
  {
    var t := ToBinary(b as nat);
    assert |t| <= 8 by {
      if |t| > 8 {
        Pow2Monotone(8, |t| - 1);
      }
    }
    PadStart(t, 8, '0')
  }

  /** A string of binary digits that reads as value n keeps reading as n behind any run of zeros. */
  lemma {:induction false} ParseLeadingZeros(zeros: string, t: string)
    requires IsBits(t) && forall i :: 0 <= i < |zeros| ==> zeros[i] == '0'
    ensures IsBits(zeros + t) && ParseBase2(zeros + t) == ParseBase2(t)
    decreases |zeros| + |t|
  {
    var s := zeros + t;
    if |t| == 0 {
      assert s == zeros;
      if |zeros| > 0 {
        ParseLeadingZeros(zeros[..|zeros| - 1], []);
        assert zeros[..|zeros| - 1] + [] == zeros[..|zeros| - 1];
      }
    } else {
      assert s[..|s| - 1] == zeros + t[..|t| - 1];
      ParseLeadingZeros(zeros, t[..|t| - 1]);
    }
  }

  /** Reading back the numeral `toString(2)` writes gives the number. */
  lemma {:induction false} ParseToBinary(n: nat)
    ensures ParseBase2(ToBinary(n)) == n
    decreases n
  {
    if n >= 2 {
      var s := ToBinary(n);
      assert s[..|s| - 1] == ToBinary(n / 2);
      ParseToBinary(n / 2);
    }
  }

  lemma {:induction false} Pow2Monotone(a: nat, b: nat)
    requires a <= b
    ensures Pow2(a) <= Pow2(b)
    decreases b
  {
    if a < b {
      Pow2Monotone(a, b - 1);
    }
  }

  /** Each byte becomes exactly eight binary digits that read back as the byte. */
  lemma ByteBitsRoundTrip(b: byte)
    ensures |ByteBits(b)| == 8 && IsBits(ByteBits(b))
    ensures ParseBase2(ByteBits(b)) == b as nat
  {
    var t := ToBinary(b as nat);
    var s := ByteBits(b);
    assert s == PadStart(t, 8, '0') && |t| <= 8;
    var zeros := s[..8 - |t|];
    assert s == zeros + t;
    ParseToBinary(b as nat);
    ParseLeadingZeros(zeros, t);
  }

  /* ------------------------------ encoder ------------------------------ */

  /** `ts.join(sep)`. */
  function Join(ts: seq<string>, sep: string): (r: string)
    ensures |ts| == 0 ==> r == ""
  {
    if |ts| == 0 then "" else if |ts| == 1 then ts[0] else ts[0] + sep + Join(ts[1..], sep)
  }

  /** The numeral of every byte, in byte order. */
  function Numerals(bs: seq<byte>): (ts: seq<string>)
    ensures |ts| == |bs|
    ensures forall i :: 0 <= i < |bs| ==> ts[i] == ByteBits(bs[i])
  {
    seq(|bs|, i requires 0 <= i < |bs| => ByteBits(bs[i]))
  }

  /** `textToBinary`: the empty text gives "", any other text the numerals of its
      UTF-8 bytes joined by single spaces. */
  function TextToBinary(text: string): (r: string)
    ensures r == "" <==> text == ""
  {
    if text == "" then "" else Join(Numerals(Utf8.Encode(text)), " ")
  }

  /** Every token is eight binary digits. */
  predicate AllOctets(ts: seq<string>) {
    forall i :: 0 <= i < |ts| ==> |ts[i]| == 8 && IsBits(ts[i])
  }

  lemma {:induction false} JoinLength(ts: seq<string>)
    requires |ts| > 0 && AllOctets(ts)
    ensures |Join(ts, " ")| == 9 * |ts| - 1
  {
    if |ts| > 1 {
      JoinLength(ts[1..]);
    }
  }

  lemma {:induction false} JoinGroups(ts: seq<string>)
    requires |ts| > 0 && AllOctets(ts)
    ensures var r := Join(ts, " ");
            && |r| == 9 * |ts| - 1
            && (forall k :: 0 <= k < |ts| ==> r[9 * k .. 9 * k + 8] == ts[k])
            && (forall k :: 0 <= k < |ts| - 1 ==> r[9 * k + 8] == ' ')
  {
    JoinLength(ts);
    if |ts| > 1 {
      var r := Join(ts, " ");
      var rest := Join(ts[1..], " ");
      assert r == ts[0] + " " + rest;
      JoinGroups(ts[1..]);
      forall k | 1 <= k < |ts|
        ensures r[9 * k .. 9 * k + 8] == ts[k]
      {
        assert r[9 * k .. 9 * k + 8] == rest[9 * (k - 1) .. 9 * (k - 1) + 8];
      }
      forall k | 1 <= k < |ts| - 1
        ensures r[9 * k + 8] == ' '
      {
        assert r[9 * k + 8] == rest[9 * (k - 1) + 8];
      }
    }
  }

  lemma {:induction false} JoinAlphabet(ts: seq<string>)
    requires |ts| > 0 && AllOctets(ts)
    ensures var r := Join(ts, " ");
            && (forall i :: 0 <= i < |r| ==> IsBit(r[i]) || r[i] == ' ')
            && |r| > 0 && IsBit(r[0]) && IsBit(r[|r| - 1])
  {
    var r := Join(ts, " ");
    if |ts| == 1 {
      assert r == ts[0];
    } else {
      var rest := Join(ts[1..], " ");
      assert r == ts[0] + " " + rest;
      JoinLength(ts[1..]);
      JoinAlphabet(ts[1..]);
      forall i | 9 <= i < |r|
        ensures IsBit(r[i]) || r[i] == ' '
      {
        assert r[i] == rest[i - 9];
      }
      assert r[0] == ts[0][0];
      assert r[|r| - 1] == rest[|rest| - 1];
    }
  }

  /** How the output is laid out: for n UTF-8 bytes it has 9n - 1 characters, the
      k-th group of eight is the numeral of the k-th byte and a single space
      follows every group but the last. */
  lemma JoinLayout(bs: seq<byte>)
    requires |bs| > 0
    ensures var r := Join(Numerals(bs), " ");
            && |r| == 9 * |bs| - 1
            && (forall k :: 0 <= k < |bs| ==> r[9 * k .. 9 * k + 8] == ByteBits(bs[k]))
            && (forall k :: 0 <= k < |bs| - 1 ==> r[9 * k + 8] == ' ')
            && (forall i :: 0 <= i < |r| ==> IsBit(r[i]) || r[i] == ' ')
            && IsBit(r[0]) && IsBit(r[|r| - 1])
  {
    var ts := Numerals(bs);
    forall i | 0 <= i < |ts|
      ensures |ts[i]| == 8 && IsBits(ts[i])
    {
      ByteBitsRoundTrip(bs[i]);
    }
    JoinGroups(ts);
    JoinAlphabet(ts);
  }

  /** The output for a non-empty text has the 9n - 1 layout over its n UTF-8 bytes. */
  lemma TextToBinaryLayout(text: string)
    requires text != ""
    ensures var bs := Utf8.Encode(text);
            var r := TextToBinary(text);
            && |bs| > 0
            && |r| == 9 * |bs| - 1
            && (forall k :: 0 <= k < |bs| ==> r[9 * k .. 9 * k + 8] == ByteBits(bs[k]))
            && (forall k :: 0 <= k < |bs| - 1 ==> r[9 * k + 8] == ' ')
  {
    JoinLayout(Utf8.Encode(text));
  }

  /* ------------------------------ decoder ------------------------------ */

  /** `s.replace(/[^01\s]/g, '')`: keeps binary digits and white space, in order. */
  function KeepBinary(s: string): (r: string)
    ensures |r| <= |s|
    ensures forall i :: 0 <= i < |r| ==> IsBit(r[i]) || IsSpace(r[i])
  {
    if |s| == 0 then ""
    else if IsBit(s[0]) || IsSpace(s[0]) then [s[0]] + KeepBinary(s[1..])
    else KeepBinary(s[1..])
  }

  /** The filter on one character: kept exactly when it is a binary digit or white space. */
  lemma KeepBinaryChar(c: char)
    ensures KeepBinary([c]) == if IsBit(c) || IsSpace(c) then [c] else []
  {
    assert [c][1..] == [];
  }

  /** The filter works character by character: with KeepBinaryChar this fixes
      KeepBinary on every input. */
  lemma {:induction false} KeepBinaryAppend(a: string, b: string)
    ensures KeepBinary(a + b) == KeepBinary(a) + KeepBinary(b)
    decreases |a|
  {
    if |a| == 0 {
      assert a + b == b;
    } else {
      assert (a + b)[0] == a[0];
      assert (a + b)[1..] == a[1..] + b;
      KeepBinaryAppend(a[1..], b);
    }
  }

  /** `binary.trim().replace(/[^01\s]/g, '')`. */
  function Clean(binary: string): (r: string)
    ensures |r| <= |binary|
    ensures forall i :: 0 <= i < |r| ==> IsBit(r[i]) || IsSpace(r[i])
    ensures IsBlank(binary) ==> r == ""
  {
    TrimEmptyIffBlank(binary);
    KeepBinary(Trim(binary))
  }

  /** A non-empty run of characters none of which is white space. */
  predicate IsWord(t: string) {
    |t| > 0 && forall j :: 0 <= j < |t| ==> !IsSpace(t[j])
  }

  /** Length of the longest prefix of s that holds no white space. */
  function RunLength(s: string): (n: nat)
    ensures n <= |s|
    ensures forall i :: 0 <= i < n ==> !IsSpace(s[i])
    ensures n < |s| ==> IsSpace(s[n])
  {
    if |s| == 0 || IsSpace(s[0]) then 0 else 1 + RunLength(s[1..])
  }

  /** `s.split(/\s+/).filter(b => b)`: the maximal runs of non-white-space characters, in order. */
  function Tokens(s: string): (ts: seq<string>)
    ensures forall i :: 0 <= i < |ts| ==> IsWord(ts[i])
    decreases |s|
  {
    if |s| == 0 then []
    else if IsSpace(s[0]) then Tokens(s[1..])
    else
      var n := RunLength(s);
      [s[..n]] + Tokens(s[n..])
  }

  /** A longest run that ends inside a, or at a white-space character after it,
      is not changed by what follows. */
  lemma RunLengthPrefix(a: string, rest: string)
    requires RunLength(a) < |a| || (|rest| > 0 && IsSpace(rest[0]))
    ensures RunLength(a + rest) == RunLength(a)
  {
    var n := RunLength(a);
    var s := a + rest;
    assert forall i :: 0 <= i < n ==> s[i] == a[i];
    assert s[n] == if n < |a| then a[n] else rest[0];
  }

  /** A word on its own is one token. */
  lemma TokensOfWord(w: string)
    requires IsWord(w)
    ensures Tokens(w) == [w]
  {
    RunLengthOfWord(w, "");
    assert w + "" == w;
    assert w[..|w|] == w && w[|w|..] == "";
  }

  /** A white-space character separates tokens: the tokens on either side of it,
      in order. With TokensOfWord and Tokens("") == [] this fixes Tokens on every input. */
  lemma {:induction false} TokensSplitAtSpace(a: string, c: char, b: string)
    requires IsSpace(c)
    ensures Tokens(a + [c] + b) == Tokens(a) + Tokens(b)
    decreases |a|
  {
    if |a| == 0 {
      var s := a + [c] + b;
      assert s == [c] + b && s[1..] == b;
    } else if IsSpace(a[0]) {
      TokensSplitAtSpace(a[1..], c, b);
      TokensSpaceStep(a, c, b);
    } else {
      var n := RunLength(a);
      TokensSplitAtSpace(a[n..], c, b);
      TokensWordStep(a, c, b);
    }
  }

  /** The step of TokensSplitAtSpace past a leading white-space character of a. */
  lemma TokensSpaceStep(a: string, c: char, b: string)
    requires |a| > 0 && IsSpace(a[0])
    requires Tokens(a[1..] + [c] + b) == Tokens(a[1..]) + Tokens(b)
    ensures Tokens(a + [c] + b) == Tokens(a) + Tokens(b)
  {
    var s := a + [c] + b;
    assert s[0] == a[0];
    assert s[1..] == a[1..] + [c] + b;
  }

  /** The step of TokensSplitAtSpace past the leading word of a. */
  lemma TokensWordStep(a: string, c: char, b: string)
    requires |a| > 0 && !IsSpace(a[0]) && IsSpace(c)
    requires Tokens(a[RunLength(a)..] + [c] + b) == Tokens(a[RunLength(a)..]) + Tokens(b)
    ensures Tokens(a + [c] + b) == Tokens(a) + Tokens(b)
  {
    var n := RunLength(a);
    var s := a + [c] + b;
    assert s == a + ([c] + b);
    RunLengthPrefix(a, [c] + b);
    assert s[0] == a[0];
    assert s[..n] == a[..n];
    assert s[n..] == a[n..] + [c] + b;
  }

  /** The tokens written one after another. */
  function Concat(ts: seq<string>): string
  {
    if |ts| == 0 then "" else ts[0] + Concat(ts[1..])
  }

  /** s with every white-space character removed. */
  function DropSpace(s: string): (r: string)
    ensures forall i :: 0 <= i < |r| ==> !IsSpace(r[i])
  {
    if |s| == 0 then "" else (if IsSpace(s[0]) then "" else [s[0]]) + DropSpace(s[1..])
  }

  lemma {:induction false} DropSpaceAppend(a: string, b: string)
    ensures DropSpace(a + b) == DropSpace(a) + DropSpace(b)
    decreases |a|
  {
    if |a| == 0 {
      assert a + b == b;
    } else {
      assert (a + b)[0] == a[0];
      assert (a + b)[1..] == a[1..] + b;
      DropSpaceAppend(a[1..], b);
    }
  }

  lemma {:induction false} DropSpaceOfWord(w: string)
    requires forall i :: 0 <= i < |w| ==> !IsSpace(w[i])
    ensures DropSpace(w) == w
  {
    if |w| > 0 {
      DropSpaceOfWord(w[1..]);
    }
  }

  /** Splitting loses nothing but white space: the tokens put back together are the
      input with its white space removed. */
  lemma {:induction false} TokensConcat(s: string)
    ensures Concat(Tokens(s)) == DropSpace(s)
    decreases |s|
  {
    if |s| > 0 {
      if IsSpace(s[0]) {
        TokensConcat(s[1..]);
      } else {
        var n := RunLength(s);
        var w := s[..n];
        TokensConcat(s[n..]);
        assert s == w + s[n..];
        DropSpaceAppend(w, s[n..]);
        DropSpaceOfWord(w);
        var ts := [w] + Tokens(s[n..]);
        assert ts[1..] == Tokens(s[n..]);
      }
    }
  }

  /** `/^[01]{1,8}$/.test(t)`. */
  predicate IsByteToken(t: string) {
    1 <= |t| <= 8 && IsBits(t)
  }

  /** The validation and `parseInt(b, 2)` of every token: no bytes when some
      token is not 1 to 8 binary digits, otherwise the value of each token. */
  function TokensToBytes(ts: seq<string>): (r: Option<seq<byte>>)
    ensures r.None? <==> exists i :: 0 <= i < |ts| && !IsByteToken(ts[i])
    ensures r.Some? ==> |r.value| == |ts|
    ensures r.Some? ==> forall i :: 0 <= i < |ts| ==> IsBits(ts[i]) && r.value[i] as nat == ParseBase2(ts[i])
  {
    if |ts| == 0 then Some([])
    else if !IsByteToken(ts[0]) then None
    else
      Pow2Monotone(|ts[0]|, 8);
      match TokensToBytes(ts[1..])
      case None => None
      case Some(rest) => Some([ParseBase2(ts[0]) as byte] + rest)
  }

  /** `binaryToText`: the cleaned input, tokenised, validated, parsed and UTF-8 decoded. */
  function BinaryToText(binary: string): (r: string)
    ensures Clean(binary) == "" ==> r == ""
  {
    var clean := Clean(binary);
    if clean == "" then ""
    else
      match TokensToBytes(Tokens(clean))
      case None => InvalidBinaryMessage
      case Some(bytes) => Utf8.Decode(bytes)
  }

  /* ------------------------------ lemmas ------------------------------ */

  /** Splitting a string made only of binary digits and white space yields binary numerals only. */
  lemma {:induction false} TokensAreBits(s: string)
    requires forall i :: 0 <= i < |s| ==> IsBit(s[i]) || IsSpace(s[i])
    ensures forall i :: 0 <= i < |Tokens(s)| ==> IsBits(Tokens(s)[i])
    decreases |s|
  {
    if |s| > 0 {
      if IsSpace(s[0]) {
        TokensAreBits(s[1..]);
      } else {
        TokensAreBits(s[RunLength(s)..]);
      }
    }
  }

  /** After cleaning, the only way to fail validation is a numeral longer than eight digits. */
  lemma InvalidOnlyWhenTooLong(binary: string)
    ensures var ts := Tokens(Clean(binary));
            TokensToBytes(ts).None? <==> exists i :: 0 <= i < |ts| && |ts[i]| > 8
  {
    TokensAreBits(Clean(binary));
  }

  /** `binaryToText` returns the fixed message exactly when, after cleaning, some
      numeral has more than eight digits; otherwise it decodes bytes in 0..255. */
  lemma BinaryToTextOutcome(binary: string)
    ensures var ts := Tokens(Clean(binary));
            (Clean(binary) != "" && exists i :: 0 <= i < |ts| && |ts[i]| > 8)
              ==> BinaryToText(binary) == InvalidBinaryMessage
    ensures var ts := Tokens(Clean(binary));
            (Clean(binary) != "" && forall i :: 0 <= i < |ts| ==> |ts[i]| <= 8)
              ==> TokensToBytes(ts).Some? && BinaryToText(binary) == Utf8.Decode(TokensToBytes(ts).value)
  {
    InvalidOnlyWhenTooLong(binary);
  }

  /** A word followed by white space or by nothing is one whole run. */
  lemma RunLengthOfWord(w: string, rest: string)
    requires IsWord(w)
    requires |rest| == 0 || IsSpace(rest[0])
    ensures RunLength(w + rest) == |w|
  {
    var s := w + rest;
    assert forall i :: 0 <= i < |w| ==> s[i] == w[i];
    assert |rest| > 0 ==> s[|w|] == rest[0];
  }

  /** Splitting undoes joining with single spaces. */
  lemma {:induction false} TokensOfJoin(ts: seq<string>)
    requires forall i :: 0 <= i < |ts| ==> IsWord(ts[i])
    ensures Tokens(Join(ts, " ")) == ts
  {
    if |ts| == 1 {
      RunLengthOfWord(ts[0], "");
      assert ts[0] + "" == ts[0];
      assert ts[0][..|ts[0]|] == ts[0];
    } else if |ts| > 1 {
      var rest := Join(ts[1..], " ");
      var s := ts[0] + (" " + rest);
      assert Join(ts, " ") == s;
      RunLengthOfWord(ts[0], " " + rest);
      assert s[..|ts[0]|] == ts[0];
      assert s[|ts[0]|..] == " " + rest;
      assert (" " + rest)[1..] == rest;
      TokensOfJoin(ts[1..]);
    }
  }

  /** Validation and parsing read every numeral back as its byte. */
  lemma NumeralsToBytes(bs: seq<byte>)
    ensures TokensToBytes(Numerals(bs)) == Some(bs)
  {
    var ts := Numerals(bs);
    forall i | 0 <= i < |bs|
      ensures IsByteToken(ts[i]) && ParseBase2(ts[i]) == bs[i] as nat
    {
      ByteBitsRoundTrip(bs[i]);
    }
    var r := TokensToBytes(ts);
    assert r.value == bs;
  }

  /** The output of `textToBinary` for a non-empty text starts and ends with a
      binary digit and holds nothing but binary digits and spaces. */
  lemma TextToBinaryAlphabet(text: string)
    requires text != ""
    ensures var r := TextToBinary(text);
            && |r| > 0 && IsBit(r[0]) && IsBit(r[|r| - 1])
            && forall i :: 0 <= i < |r| ==> IsBit(r[i]) || r[i] == ' '
  {
    var bs := Utf8.Encode(text);
    var r := Join(Numerals(bs), " ");
    JoinLayout(bs);
    assert |r| > 0 && IsBit(r[0]) && IsBit(r[|r| - 1]);
    assert TextToBinary(text) == r;
  }

  /** The output of `textToBinary` survives cleaning unchanged. */
  lemma CleanTextToBinary(text: string)
    requires text != ""
    ensures Clean(TextToBinary(text)) == TextToBinary(text) != ""
  {
    TextToBinaryAlphabet(text);
    CleanKeepsBits(TextToBinary(text));
  }

  /** A non-empty string of binary digits and spaces that starts and ends with a digit is already clean. */
  lemma CleanKeepsBits(r: string)
    requires |r| > 0 && IsBit(r[0]) && IsBit(r[|r| - 1])
    requires forall i :: 0 <= i < |r| ==> IsBit(r[i]) || r[i] == ' '
    ensures Clean(r) == r
  {
    TrimNoOp(r);
    KeepBinaryNoOp(r);
  }

  /** Splitting the output of `textToBinary` gives back the numerals of the UTF-8 bytes. */
  lemma TokensOfTextToBinary(text: string)
    requires text != ""
    ensures Tokens(TextToBinary(text)) == Numerals(Utf8.Encode(text))
  {
    var ts := Numerals(Utf8.Encode(text));
    forall i | 0 <= i < |ts|
      ensures IsWord(ts[i])
    {
      ByteBitsRoundTrip(Utf8.Encode(text)[i]);
    }
    TokensOfJoin(ts);
  }

  /** Converting the output of `textToBinary` back decodes exactly the bytes the text was encoded to. */
  lemma BinaryToTextOfEncoding(text: string)
    ensures BinaryToText(TextToBinary(text)) == Utf8.Decode(Utf8.Encode(text))
  {
    if text != "" {
      var r := TextToBinary(text);
      var bs := Utf8.Encode(text);
      CleanTextToBinary(text);
      TokensOfTextToBinary(text);
      NumeralsToBytes(bs);
      assert Clean(r) == r && r != "";
      assert TokensToBytes(Tokens(Clean(r))) == Some(bs);
    }
  }

  /** `binaryToText(textToBinary(s)) == s` for every text that does not begin with U+FEFF. */
  lemma RoundTrip(text: string)
    requires |text| == 0 || text[0] != Utf8.ByteOrderMark
    ensures BinaryToText(TextToBinary(text)) == text
  {
    BinaryToTextOfEncoding(text);
    Utf8.DecodeEncode(text);
  }

  /** A text that does begin with U+FEFF comes back without it. */
  lemma RoundTripDropsMark(text: string)
    requires |text| > 0 && text[0] == Utf8.ByteOrderMark
    ensures BinaryToText(TextToBinary(text)) == text[1..]
  {
    BinaryToTextOfEncoding(text);
    Utf8.DecodeEncodeDropsMark(text);
  }

  /** Cleaning keeps a string of binary digits and spaces as it is. */
  lemma {:induction false} KeepBinaryNoOp(s: string)
    requires forall i :: 0 <= i < |s| ==> IsBit(s[i]) || s[i] == ' '
    ensures KeepBinary(s) == s
  {
    if |s| > 0 {
      KeepBinaryNoOp(s[1..]);
    }
  }

  /* --------------------------- the two boxes --------------------------- */

  /** The contents of the text box and the binary box. */
  datatype Boxes = Boxes(text: string, binary: string)

  /** `handleTextChange`: a blank text empties the binary box without converting. */
  function OnTextChange(b: Boxes, newText: string): (r: Boxes)
    ensures r.text == newText
    ensures IsBlank(newText) ==> r.binary == ""
    ensures !IsBlank(newText) ==> r.binary == TextToBinary(newText)
  {
    TrimEmptyIffBlank(newText);
    if Trim(newText) == "" then Boxes(newText, "") else Boxes(newText, TextToBinary(newText))
  }

  /** `handleBinaryChange`: a blank binary input empties the text box without converting. */
  function OnBinaryChange(b: Boxes, newBinary: string): (r: Boxes)
    ensures r.binary == newBinary
    ensures IsBlank(newBinary) ==> r.text == ""
    ensures !IsBlank(newBinary) ==> r.text == BinaryToText(newBinary)
  {
    TrimEmptyIffBlank(newBinary);
    if Trim(newBinary) == "" then Boxes("", newBinary) else Boxes(BinaryToText(newBinary), newBinary)
  }

  /** `clearAll`. */
  function ClearAll(b: Boxes): (r: Boxes)
    ensures r.text == "" && r.binary == ""
  {
    Boxes("", "")
  }

  /** Typing only white space in either box empties the other box. */
  lemma BlankInputClearsOther(b: Boxes, s: string)
    requires IsBlank(s)
    ensures OnTextChange(b, s) == Boxes(s, "")
    ensures OnBinaryChange(b, s) == Boxes("", s)
  {
    TrimEmptyIffBlank(s);
  }

  /** After any edit of the text box, converting the binary box back reproduces the
      text, unless the text is blank (the binary box is then empty) or begins with U+FEFF. */
  lemma TextEditRoundTrips(b: Boxes, s: string)
    requires !IsBlank(s) && s[0] != Utf8.ByteOrderMark
    ensures BinaryToText(OnTextChange(b, s).binary) == s
  {
    TrimEmptyIffBlank(s);
    RoundTrip(s);
  }

  /** In the binary direction the blank short-circuit agrees with the conversion itself. */
  lemma BlankBinaryConvertsToEmpty(s: string)
    requires IsBlank(s)
    ensures BinaryToText(s) == ""
  {
    TrimEmptyIffBlank(s);
  }

  /** In the text direction it does not: a single space converts to one numeral,
      yet typing it leaves the binary box empty. */
  lemma BlankTextShortCircuitDiffers()
    ensures TextToBinary(" ") == "00100000"
    ensures OnTextChange(Boxes("", ""), " ").binary == ""
  {
    SpaceText();
    assert IsBlank(" ");
    TrimEmptyIffBlank(" ");
  }

  lemma SpaceText()
    ensures TextToBinary(" ") == "00100000"
  {
    SpaceBytes();
    SpaceNumeral();
    var ts := Numerals(Utf8.Encode(" "));
    assert |ts| == 1 && ts[0] == "00100000";
    assert Join(ts, " ") == ts[0];
  }

  lemma SpaceBytes()
    ensures Utf8.Encode(" ") == [32 as byte]
  {
    assert Utf8.EncodeChar(' ') == [32 as byte];
  }

  /** The numeral of the byte 0x20. */
  lemma SpaceNumeral()
    ensures ByteBits(32 as byte) == "00100000"
  {
    ThirtyTwoInBinary();
    assert seq(2, _ => '0') == "00";
  }

  lemma ThirtyTwoInBinary()
    ensures ToBinary(32) == "100000"
  {
    assert ToBinary(2) == "10";
    assert ToBinary(4) == "100";
    assert ToBinary(8) == "1000";
    assert ToBinary(16) == "10000";
  }
}

=== FILE: js_text.dfy ===
/**
 The ECMAScript string primitives the converters lean on: the white-space
 class that `\s` matches and that `String.prototype.trim` strips (WhiteSpace
 and LineTerminator, sections 12.2 and 12.3 of ECMA-262).
 */
module JsText {

  /** A character `\s` matches: TAB, VT, FF, ZWNBSP, every Zs space separator,
      and the line terminators LF, CR, LS and PS. */
  predicate IsSpace(c: char) {
    || c == '\t' || c == '\n' || c == '\U{000B}' || c == '\U{000C}' || c == '\r'
    || c == ' ' || c == '\U{00A0}' || c == '\U{1680}'
    || ('\U{2000}' <= c <= '\U{200A}')
    || c == '\U{2028}' || c == '\U{2029}' || c == '\U{202F}' || c == '\U{205F}'
    || c == '\U{3000}' || c == '\U{FEFF}'
  }

  /** Every character of s is white space (vacuously true of ""). */
  predicate IsBlank(s: string) {
    forall i :: 0 <= i < |s| ==> IsSpace(s[i])
  }

  /** s with its leading white space removed. */
  function TrimStart(s: string): (r: string)
    ensures |r| <= |s| && r == s[|s| - |r|..]
    ensures IsBlank(s[..|s| - |r|])
    ensures |r| == 0 || !IsSpace(r[0])
  {
    if |s| > 0 && IsSpace(s[0]) then TrimStart(s[1..]) else s
  }

  /** s with its trailing white space removed. */
  function TrimEnd(s: string): (r: string)
    ensures |r| <= |s| && r == s[..|r|]
    ensures IsBlank(s[|r|..])
    ensures |r| == 0 || !IsSpace(r[|r| - 1])
  {
    if |s| > 0 && IsSpace(s[|s| - 1]) then TrimEnd(s[..|s| - 1]) else s
  }

  /** `String.prototype.trim`. */
  function Trim(s: string): (r: string)
    ensures |r| <= |s|
    ensures r == "" || (!IsSpace(r[0]) && !IsSpace(r[|r| - 1]))
  {
    TrimEnd(TrimStart(s))
  }

  /** `s.trim() === ''` holds exactly for the strings made only of white space. */
  lemma TrimEmptyIffBlank(s: string)
    ensures Trim(s) == "" <==> IsBlank(s)
  {
    var t := TrimStart(s);
    assert s == s[..|s| - |t|] + t;
    if IsBlank(s) {
      assert |t| == 0;
    }
  }

  /** Trimming leaves a string whose first and last characters are not white space unchanged. */
  lemma TrimNoOp(s: string)
    requires |s| > 0 && !IsSpace(s[0]) && !IsSpace(s[|s| - 1])
    ensures Trim(s) == s
  {
  }
}

=== FILE: qr_options.dfy ===
/**
 The QR generator's option record and `handleUpdate`, which merges a partial
 record into the previous one by object spread: a field the patch carries
 replaces the old value wholesale (a nested record included), every other
 field is kept. Also the scan-quality indicator drawn from the
 error-correction level.
 */
module QrOptions {
  import opened Wrappers
  import QrPayload

  /* Nested records; every field of them is optional in the renderer's option type. */
  datatype QrSettings = QrSettings(typeNumber: Option<int>, mode: Option<string>, errorCorrectionLevel: Option<string>)
  datatype ImageSettings = ImageSettings(hideBackgroundDots: Option<bool>, imageSize: Option<real>,
                                         margin: Option<int>, crossOrigin: Option<string>)
  /** `shape` is the renderer's `type` field. */
  datatype DotsSettings = DotsSettings(color: Option<string>, shape: Option<string>)
  datatype BackgroundSettings = BackgroundSettings(color: Option<string>)
  datatype CornersSettings = CornersSettings(color: Option<string>, shape: Option<string>)

  /** The generator's option state; `kind` is the renderer's `type` field (`svg`). */
  datatype Options = Options(
    width: int, height: int, kind: string, data: string, image: string, margin: int,
    qrOptions: QrSettings, imageOptions: ImageSettings, dotsOptions: DotsSettings,
    backgroundOptions: BackgroundSettings, cornersSquareOptions: CornersSettings)

  /** A partial option record: the argument of `handleUpdate`. */
  datatype Patch = Patch(
    width: Option<int>, height: Option<int>, kind: Option<string>, data: Option<string>,
    image: Option<string>, margin: Option<int>, qrOptions: Option<QrSettings>,
    imageOptions: Option<ImageSettings>, dotsOptions: Option<DotsSettings>,
    backgroundOptions: Option<BackgroundSettings>, cornersSquareOptions: Option<CornersSettings>)

  const EmptyPatch: Patch := Patch(None, None, None, None, None, None, None, None, None, None, None)

  /** The options the generator starts from. */
  const DefaultOptions: Options := Options(
    256, 256, "svg", "https://tabdila.com", "", 20,
    QrSettings(Some(0), Some("Byte"), Some("M")),
    ImageSettings(Some(true), Some(0.3), Some(10), Some("anonymous")),
    DotsSettings(Some("#000000"), Some("square")),
    BackgroundSettings(Some("#ffffff")),
    CornersSettings(Some("#000000"), Some("square")))

  /** The top-level fields, which the merge treats one by one. */
  datatype Field = Width | Height | Kind | Data | Image | Margin
                 | QrField | ImageField | DotsField | BackgroundField | CornersField

  /** The patch carries field f. */
  predicate InPatch(p: Patch, f: Field) {
    match f
    case Width => p.width.Some?
    case Height => p.height.Some?
    case Kind => p.kind.Some?
    case Data => p.data.Some?
    case Image => p.image.Some?
    case Margin => p.margin.Some?
    case QrField => p.qrOptions.Some?
    case ImageField => p.imageOptions.Some?
    case DotsField => p.dotsOptions.Some?
    case BackgroundField => p.backgroundOptions.Some?
    case CornersField => p.cornersSquareOptions.Some?
  }

  /** a and b agree on field f. */
  predicate SameField(a: Options, b: Options, f: Field) {
    match f
    case Width => a.width == b.width
    case Height => a.height == b.height
    case Kind => a.kind == b.kind
    case Data => a.data == b.data
    case Image => a.image == b.image
    case Margin => a.margin == b.margin
    case QrField => a.qrOptions == b.qrOptions
    case ImageField => a.imageOptions == b.imageOptions
    case DotsField => a.dotsOptions == b.dotsOptions
    case BackgroundField => a.backgroundOptions == b.backgroundOptions
    case CornersField => a.cornersSquareOptions == b.cornersSquareOptions
  }

  /** Field f of r is the value the patch carries for it. */
  predicate TookPatch(r: Options, p: Patch, f: Field) {
    match f
    case Width => p.width == Some(r.width)
    case Height => p.height == Some(r.height)
    case Kind => p.kind == Some(r.kind)
    case Data => p.data == Some(r.data)
    case Image => p.image == Some(r.image)
    case Margin => p.margin == Some(r.margin)
    case QrField => p.qrOptions == Some(r.qrOptions)
    case ImageField => p.imageOptions == Some(r.imageOptions)
    case DotsField => p.dotsOptions == Some(r.dotsOptions)
    case BackgroundField => p.backgroundOptions == Some(r.backgroundOptions)
    case CornersField => p.cornersSquareOptions == Some(r.cornersSquareOptions)
  }

  /** `{...prev, ...patch}`: every carried field replaced, every other one kept. */
  function Merge(prev: Options, p: Patch): (r: Options)
    ensures forall f :: InPatch(p, f) ==> TookPatch(r, p, f)
    ensures forall f :: !InPatch(p, f) ==> SameField(r, prev, f)
  {
    Options(
      p.width.GetOr(prev.width), p.height.GetOr(prev.height), p.kind.GetOr(prev.kind),
      p.data.GetOr(prev.data), p.image.GetOr(prev.image), p.margin.GetOr(prev.margin),
      p.qrOptions.GetOr(prev.qrOptions), p.imageOptions.GetOr(prev.imageOptions),
      p.dotsOptions.GetOr(prev.dotsOptions), p.backgroundOptions.GetOr(prev.backgroundOptions),
      p.cornersSquareOptions.GetOr(prev.cornersSquareOptions))
  }

  /** Two option records agreeing on every field are the same record. */
  lemma FieldsDetermine(a: Options, b: Options)
    requires forall f :: SameField(a, b, f)
    ensures a == b
  {
    assert SameField(a, b, Width) && SameField(a, b, Height) && SameField(a, b, Kind);
    assert SameField(a, b, Data) && SameField(a, b, Image) && SameField(a, b, Margin);
    assert SameField(a, b, QrField) && SameField(a, b, ImageField) && SameField(a, b, DotsField);
    assert SameField(a, b, BackgroundField) && SameField(a, b, CornersField);
  }

  /** Merging the empty patch changes nothing. */
  lemma MergeEmpty(o: Options)
    ensures Merge(o, EmptyPatch) == o
  {
    forall f ensures SameField(Merge(o, EmptyPatch), o, f) {
      assert !InPatch(EmptyPatch, f);
    }
    FieldsDetermine(Merge(o, EmptyPatch), o);
  }

  /** Merging the same patch twice is merging it once. */
  lemma MergeIdempotent(o: Options, p: Patch)
    ensures Merge(Merge(o, p), p) == Merge(o, p)
  {
  }

  /** p followed by q: q's field where q carries one, p's otherwise. */
  function Then(p: Patch, q: Patch): Patch
  {
    Patch(
      if q.width.Some? then q.width else p.width,
      if q.height.Some? then q.height else p.height,
      if q.kind.Some? then q.kind else p.kind,
      if q.data.Some? then q.data else p.data,
      if q.image.Some? then q.image else p.image,
      if q.margin.Some? then q.margin else p.margin,
      if q.qrOptions.Some? then q.qrOptions else p.qrOptions,
      if q.imageOptions.Some? then q.imageOptions else p.imageOptions,
      if q.dotsOptions.Some? then q.dotsOptions else p.dotsOptions,
      if q.backgroundOptions.Some? then q.backgroundOptions else p.backgroundOptions,
      if q.cornersSquareOptions.Some? then q.cornersSquareOptions else p.cornersSquareOptions)
  }

  /** Two successive updates are one update by the combined patch. */
  lemma MergeThen(o: Options, p: Patch, q: Patch)
    ensures Merge(Merge(o, p), q) == Merge(o, Then(p, q))
  {
  }

  /** The patch of the content effect: `{ data }`. */
  function DataPatch(data: string): (p: Patch)
    ensures forall f :: InPatch(p, f) <==> f == Data
  {
    EmptyPatch.(data := Some(data))
  }

  /** The patch of the size effect: `{ width: size, height: size }`. */
  function SizePatch(size: int): (p: Patch)
    ensures forall f :: InPatch(p, f) <==> f == Width || f == Height
  {
    EmptyPatch.(width := Some(size), height := Some(size))
  }

  /** The content effect: the payload of the current form goes into `data`. */
  function ContentEffect(o: Options, c: QrPayload.Content): (r: Options)
    ensures r.data == QrPayload.Encode(c)
    ensures forall f :: f != Data ==> SameField(r, o, f)
  {
    Merge(o, DataPatch(QrPayload.Encode(c)))
  }

  /** The size effect. */
  function SizeEffect(o: Options, size: int): (r: Options)
    ensures r.width == size && r.height == size
    ensures forall f :: f != Width && f != Height ==> SameField(r, o, f)
  {
    Merge(o, SizePatch(size))
  }

  /** The two effects touch disjoint fields, so the order in which they run does not matter. */
  lemma EffectsCommute(o: Options, c: QrPayload.Content, size: int)
    ensures SizeEffect(ContentEffect(o, c), size) == ContentEffect(SizeEffect(o, size), c)
  {
  }

  /** Only the latest content counts: a second content change overwrites the first. */
  lemma LatestContentWins(o: Options, c1: QrPayload.Content, c2: QrPayload.Content)
    ensures ContentEffect(ContentEffect(o, c1), c2) == ContentEffect(o, c2)
  {
  }

  /** On mount both effects run: the default link becomes the payload and the
      slider's initial 180 replaces the default 256 pixels. */
  lemma MountedOptions()
    ensures var link := QrPayload.Link("https://tabdila.com");
            var o := SizeEffect(ContentEffect(DefaultOptions, link), 180);
            && o.width == 180 && o.height == 180 && o.data == "https://tabdila.com"
            && o == DefaultOptions.(width := 180, height := 180)
  {
  }

  /** The error-correction select's patch: the current nested record with only the level replaced. */
  function LevelPatch(o: Options, level: string): (p: Patch)
    ensures forall f :: InPatch(p, f) <==> f == QrField
    ensures p.qrOptions == Some(QrSettings(o.qrOptions.typeNumber, o.qrOptions.mode, Some(level)))
  {
    EmptyPatch.(qrOptions := Some(o.qrOptions.(errorCorrectionLevel := Some(level))))
  }

  /** Choosing a level keeps the type number and mode because the handler copies them in. */
  lemma LevelChangeKeepsQrSettings(o: Options, level: string)
    ensures var r := Merge(o, LevelPatch(o, level));
            && r.qrOptions.errorCorrectionLevel == Some(level)
            && r.qrOptions.typeNumber == o.qrOptions.typeNumber
            && r.qrOptions.mode == o.qrOptions.mode
            && forall f :: f != QrField ==> SameField(r, o, f)
  {
  }

  /** The merge is shallow: a nested record in a patch is not merged into the old one,
      so a nested field the patch leaves out is lost. */
  lemma MergeIsShallow()
    ensures var r := Merge(DefaultOptions, EmptyPatch.(qrOptions := Some(QrSettings(None, None, Some("H")))));
            && DefaultOptions.qrOptions.typeNumber == Some(0)
            && r.qrOptions.typeNumber == None
  {
  }

  /* --------------------------- scan quality --------------------------- */

  /** The error-correction levels in the order the select lists them, weakest first. */
  const Levels: seq<string> := ["L", "M", "Q", "H"]

  /** The recoverable share of the symbol each level's description gives, in percent. */
  const RecoveryPercent: seq<nat> := [7, 15, 25, 30]

  /** Position of x in xs, or |xs| when x does not occur. */
  function IndexOf(xs: seq<string>, x: string): (i: nat)
    ensures i <= |xs|
    ensures i < |xs| ==> xs[i] == x
    ensures forall j :: 0 <= j < i ==> xs[j] != x
  {
    if |xs| == 0 then 0 else if xs[0] == x then 0 else 1 + IndexOf(xs[1..], x)
  }

  /** A level's place in Levels; an absent or unknown level counts as the weakest. */
  function Rank(level: Option<string>): (k: nat)
    ensures k < |Levels|
  {
    if level.Some? && IndexOf(Levels, level.value) < |Levels| then IndexOf(Levels, level.value) else 0
  }

  /** The indicator's caption for each place in Levels: low, medium, good, excellent. */
  const Captions: seq<string> := ["کم", "متوسط", "خوب", "عالی"]

  /** The indicator's colour class for each place in Levels. */
  const Colours: seq<string> := ["bg-red-500", "bg-yellow-500", "bg-blue-500", "bg-green-500"]

  /** What the indicator shows: a caption, a colour class and a bar width in percent. */
  datatype Quality = Quality(caption: string, colour: string, percent: nat)

  /** The indicator for the current level: H, Q, M, and everything else. */
  function ScanQuality(level: Option<string>): (q: Quality)
    ensures q.caption == Captions[Rank(level)]
    ensures q.colour == Colours[Rank(level)]
    ensures q.percent == 25 * (Rank(level) + 1)
  {
    if level == Some("H") then Quality("عالی", "bg-green-500", 100)
    else if level == Some("Q") then Quality("خوب", "bg-blue-500", 75)
    else if level == Some("M") then Quality("متوسط", "bg-yellow-500", 50)
    else Quality("کم", "bg-red-500", 25)
  }

  /** The bar grows with the level: a level that recovers more never shows a shorter bar,
      and the four levels show four different bars. */
  lemma QualityMonotone(i: nat, j: nat)
    requires i < |Levels| && j < |Levels|
    ensures RecoveryPercent[i] <= RecoveryPercent[j]
        <==> ScanQuality(Some(Levels[i])).percent <= ScanQuality(Some(Levels[j])).percent
  {
  }

  /** An absent or unknown level is shown like L. */
  lemma UnknownLevelIsLow(level: Option<string>)
    requires level.None? || level.value !in Levels
    ensures ScanQuality(level) == ScanQuality(Some("L"))
    ensures ScanQuality(level).percent == 25
  {
  }
}

=== FILE: qr_payload.dfy ===
/**
 The QR generator's payload: the content type chosen in the form and the
 fields of that type's form become the single string the code carries. A
 link or a text is carried as typed, a Wi-Fi network in the MECARD-style
 `WIFI:` form read by ZXing (fields inserted without any escaping), an email
 as a `mailto:` URI (section 2 of RFC 6068) and a phone number as a `tel:`
 URI (section 3 of RFC 3966).
 */
module QrPayload {
  import opened Wrappers
  import UriComponent

  /** One value per content type of the generator's select, with the fields its form holds. */
  datatype Content =
    | Link(url: string)
    | Text(text: string)
    | Wifi(ssid: string, password: string, encryption: string)
    | Email(to: string, subject: string, body: string)
    | Phone(phone: string)

  /** The encryption value the form's "None" option stands for. */
  const NoPassword: string := "nopass"

  /** The payload string of a content. */
  function Encode(c: Content): (data: string)
    ensures c.Link? ==> data == c.url
    ensures c.Text? ==> data == c.text
    ensures c.Wifi? ==> StartsWith(data, "WIFI:T:")
    ensures c.Email? ==> StartsWith(data, "mailto:" + c.to + "?subject=")
    ensures c.Phone? ==> StartsWith(data, "tel:") && data[4..] == c.phone
  {
    match c
    case Link(url) => url
    case Text(text) => text
    case Wifi(ssid, password, encryption) =>
      if encryption == NoPassword then "WIFI:T:nopass;S:" + ssid + ";;"
      else "WIFI:T:" + encryption + ";S:" + ssid + ";P:" + password + ";;"
    case Email(to, subject, body) =>
      "mailto:" + to + "?subject=" + UriComponent.Encode(subject) + "&body=" + UriComponent.Encode(body)
    case Phone(phone) => "tel:" + phone
  }

  /* ------------------------------ helpers ------------------------------ */

  predicate StartsWith(s: string, prefix: string) {
    |prefix| <= |s| && s[..|prefix|] == prefix
  }

  /** s holds the two characters `P:` side by side somewhere. */
  predicate HasPasswordTag(s: string) {
    exists i :: 0 <= i < |s| - 1 && s[i] == 'P' && s[i + 1] == ':'
  }

  /** The text of s up to its first `;`, or all of s when it has none. */
  function Field(s: string): (f: string)
    ensures |f| <= |s| && f == s[..|f|] && ';' !in f
    ensures |f| < |s| ==> s[|f|] == ';'
  {
    if |s| == 0 || s[0] == ';' then "" else [s[0]] + Field(s[1..])
  }

  /** What a reader of the `WIFI:` form recovers: the `T`, `S` and, when present, `P` fields. */
  datatype WifiFields = WifiFields(encryption: string, ssid: string, password: Option<string>)

  /** Reads `WIFI:T:<t>;S:<s>;;` or `WIFI:T:<t>;S:<s>;P:<p>;;`, each field running to the next `;`. */
  function ParseWifi(data: string): Option<WifiFields>
  {
    if !StartsWith(data, "WIFI:T:") then None
    else
      var r := data[7..];
      var enc := Field(r);
      if |enc| == |r| then None else ParseNetwork(enc, r[|enc| + 1..])
  }

  /** The `S:` field and what follows it. */
  function ParseNetwork(enc: string, r: string): Option<WifiFields>
  {
    if !StartsWith(r, "S:") then None
    else
      var t := r[2..];
      var ssid := Field(t);
      if |ssid| == |t| then None else ParsePassword(enc, ssid, t[|ssid| + 1..])
  }

  /** The closing `;` alone, or a `P:` field and the closing `;;`. */
  function ParsePassword(enc: string, ssid: string, r: string): Option<WifiFields>
  {
    if r == ";" then Some(WifiFields(enc, ssid, None))
    else if !StartsWith(r, "P:") then None
    else
      var t := r[2..];
      var pwd := Field(t);
      if t[|pwd|..] == ";;" then Some(WifiFields(enc, ssid, Some(pwd))) else None
  }

  /* ------------------------------ lemmas ------------------------------ */

  /** A link and a text are carried unchanged, the empty string included. */
  lemma LinkAndTextVerbatim(s: string)
    ensures Encode(Link(s)) == s && Encode(Text(s)) == s
  {
  }

  /** Only an empty link or an empty text gives an empty payload; every Wi-Fi,
      email and phone payload has its scheme prefix. */
  lemma EmptyPayloadIff(c: Content)
    ensures Encode(c) == "" <==> (c.Link? && c.url == "") || (c.Text? && c.text == "")
    ensures c.Wifi? ==> StartsWith(Encode(c), "WIFI:T:")
    ensures c.Email? ==> StartsWith(Encode(c), "mailto:")
    ensures c.Phone? ==> StartsWith(Encode(c), "tel:")
  {
  }

  /** Without a password the payload is `WIFI:T:nopass;S:<ssid>;;` whatever password the form holds. */
  lemma WifiNoPassIgnoresPassword(ssid: string, password: string)
    ensures Encode(Wifi(ssid, password, NoPassword)) == "WIFI:T:nopass;S:" + ssid + ";;"
    ensures Encode(Wifi(ssid, password, NoPassword)) == Encode(Wifi(ssid, "", NoPassword))
  {
  }

  /** ... and it holds no `P:` field at all unless the network name itself spells one. */
  lemma WifiNoPassHasNoPasswordField(ssid: string, password: string)
    requires !HasPasswordTag(ssid)
    ensures !HasPasswordTag(Encode(Wifi(ssid, password, NoPassword)))
  {
    var prefix := "WIFI:T:nopass;S:";
    var d := prefix + ssid + ";;";
    assert Encode(Wifi(ssid, password, NoPassword)) == d;
    forall i | 0 <= i < |d| - 1
      ensures !(d[i] == 'P' && d[i + 1] == ':')
    {
      if i < |prefix| {
        assert d[i] == prefix[i];
      } else if i < |prefix| + |ssid| - 1 {
        assert d[i] == ssid[i - |prefix|] && d[i + 1] == ssid[i + 1 - |prefix|];
      } else {
        assert d[i + 1] == ';';
      }
    }
  }

  /** With any other encryption value the payload is `WIFI:T:<enc>;S:<ssid>;P:<password>;;`,
      every field inserted verbatim. */
  lemma WifiWithPassword(ssid: string, password: string, encryption: string)
    requires encryption != NoPassword
    ensures Encode(Wifi(ssid, password, encryption))
         == "WIFI:T:" + encryption + ";S:" + ssid + ";P:" + password + ";;"
  {
  }

  /** The worked example: network "Home", password "secret1", WPA. */
  lemma WifiExample()
    ensures Encode(Wifi("Home", "secret1", "WPA")) == "WIFI:T:WPA;S:Home;P:secret1;;"
    ensures Encode(Wifi("X", "", NoPassword)) == "WIFI:T:nopass;S:X;;"
  {
  }

  /** A field that ends at a `;` is read back exactly. */
  lemma {:induction false} FieldOfTerminated(a: string, rest: string)
    requires ';' !in a
    ensures Field(a + ";" + rest) == a
  {
    if |a| > 0 {
      assert (a + ";" + rest)[1..] == a[1..] + ";" + rest;
      FieldOfTerminated(a[1..], rest);
    }
  }

  lemma ParseWifiOf(enc: string, rest: string)
    requires ';' !in enc
    ensures ParseWifi("WIFI:T:" + enc + ";" + rest) == ParseNetwork(enc, rest)
  {
    var data := "WIFI:T:" + enc + ";" + rest;
    assert data[..7] == "WIFI:T:";
    assert data[7..] == enc + ";" + rest;
    FieldOfTerminated(enc, rest);
    assert data[7..][|enc| + 1..] == rest;
  }

  lemma ParseNetworkOf(enc: string, ssid: string, rest: string)
    requires ';' !in ssid
    ensures ParseNetwork(enc, "S:" + ssid + ";" + rest) == ParsePassword(enc, ssid, rest)
  {
    var r := "S:" + ssid + ";" + rest;
    assert r[..2] == "S:";
    assert r[2..] == ssid + ";" + rest;
    FieldOfTerminated(ssid, rest);
    assert r[2..][|ssid| + 1..] == rest;
  }

  lemma ParsePasswordOf(enc: string, ssid: string, pwd: string)
    requires ';' !in pwd
    ensures ParsePassword(enc, ssid, "P:" + pwd + ";;") == Some(WifiFields(enc, ssid, Some(pwd)))
  {
    var r := "P:" + pwd + ";;";
    assert r != ";";
    assert r[..2] == "P:";
    assert r[2..] == pwd + ";" + ";";
    FieldOfTerminated(pwd, ";");
    assert r[2..][|pwd|..] == ";;";
  }

  /** A Wi-Fi reader recovers the encryption, network name and (unless `nopass`)
      the password, provided none of them holds a `;`. */
  lemma WifiRoundTrip(ssid: string, password: string, encryption: string)
    requires ';' !in ssid && ';' !in password && ';' !in encryption
    ensures ParseWifi(Encode(Wifi(ssid, password, encryption)))
         == Some(WifiFields(encryption, ssid,
                            if encryption == NoPassword then None else Some(password)))
  {
    if encryption == NoPassword {
      WifiRoundTripNoPass(ssid, password);
    } else {
      WifiRoundTripWithPass(ssid, password, encryption);
    }
  }

  lemma WifiRoundTripNoPass(ssid: string, password: string)
    requires ';' !in ssid
    ensures ParseWifi(Encode(Wifi(ssid, password, NoPassword))) == Some(WifiFields(NoPassword, ssid, None))
  {
    assert Encode(Wifi(ssid, password, NoPassword)) == "WIFI:T:" + NoPassword + ";" + ("S:" + ssid + ";" + ";");
    ParseWifiOf(NoPassword, "S:" + ssid + ";" + ";");
    ParseNetworkOf(NoPassword, ssid, ";");
  }

  lemma WifiRoundTripWithPass(ssid: string, password: string, encryption: string)
    requires ';' !in ssid && ';' !in password && ';' !in encryption && encryption != NoPassword
    ensures ParseWifi(Encode(Wifi(ssid, password, encryption))) == Some(WifiFields(encryption, ssid, Some(password)))
  {
    var tail := "P:" + password + ";;";
    assert Encode(Wifi(ssid, password, encryption)) == "WIFI:T:" + encryption + ";" + ("S:" + ssid + ";" + tail);
    ParseWifiOf(encryption, "S:" + ssid + ";" + tail);
    ParseNetworkOf(encryption, ssid, tail);
    ParsePasswordOf(encryption, ssid, password);
  }

  /** Because nothing is escaped, a `;` inside a field makes two different networks share one payload. */
  lemma WifiFieldsCollide()
    ensures Wifi("x", "y;P:z", "WPA") != Wifi("x;P:y", "z", "WPA")
    ensures Encode(Wifi("x", "y;P:z", "WPA")) == Encode(Wifi("x;P:y", "z", "WPA"))
  {
  }

  /** The recipient is inserted as typed; subject and body are percent-encoded, so
      neither holds a raw space, line break, `&`, `=` or `?`, and each decodes back to
      what was typed. */
  lemma EmailPayload(to: string, subject: string, body: string)
    ensures var es := UriComponent.Encode(subject);
            var eb := UriComponent.Encode(body);
            && Encode(Email(to, subject, body)) == "mailto:" + to + "?subject=" + es + "&body=" + eb
            && UriComponent.DecodeComponent(es) == Some(subject)
            && UriComponent.DecodeComponent(eb) == Some(body)
            && (forall i :: 0 <= i < |es| ==> UriComponent.IsUnreserved(es[i]) || es[i] == '%')
            && (forall i :: 0 <= i < |eb| ==> UriComponent.IsUnreserved(eb[i]) || eb[i] == '%')
  {
    var es := UriComponent.Encode(subject);
    var eb := UriComponent.Encode(body);
    UriComponent.DecodeEncode(subject);
    UriComponent.DecodeEncode(body);
    UriComponent.EncodedAlphabet(es);
    UriComponent.EncodedAlphabet(eb);
  }

  /** The phone number follows `tel:` exactly as typed, with no normalisation. */
  lemma PhoneVerbatim(phone: string)
    ensures StartsWith(Encode(Phone(phone)), "tel:")
    ensures Encode(Phone(phone))[4..] == phone
  {
  }
}

=== FILE: qr_reader.dfy ===
/**
 The QR reader widget as a state machine. The state is the component's React
 state together with the refs that matter (the scheduled animation frame, the
 held camera stream, the video element's source). Every browser callback is
 an event: a button press, the answer to the camera request, one animation
 frame, a re-run of the scan effect, a file pick. The decoder is an oracle:
 each frame or image event carries what it returned. React state updates take
 effect at once.

 `fixed` selects between the code as written (false) and the corrected code
 described under the findings (true): the granted stream is kept only while a
 scan still wants it and no stream is held yet, and the scan effect's cleanup
 only cancels the frame it scheduled.
 */
module QrReader {
  import opened Wrappers

  /** The three messages the widget can show, as tags. */
  datatype ReaderError = CameraUnsupported | CameraUnavailable | NoCodeInImage

  datatype Reader = Reader(
    isScanning: bool,
    hasCameraPermission: Option<bool>,
    result: Option<string>,
    error: Option<ReaderError>,
    streamHeld: bool,      // the stream ref holds a live camera stream
    framePending: bool,    // an animation frame callback is scheduled and not cancelled
    videoSrcSet: bool,     // the video element's source is a stream
    effectScanning: bool,  // the `isScanning` the scan effect last ran with
    pendingRequests: nat,  // camera requests not answered yet
    orphanStreams: nat)    // live streams that no reference leads to any more

  /** The mounted widget: nothing scanned, no permission asked, the effect has run once. */
  const Initial: Reader := Reader(false, None, None, None, false, false, false, false, 0, 0)

  datatype CameraAnswer = Granted | Denied

  /** What a file pick delivers: no file (or an image that never loads), or an image
      and what the decoder found in it. */
  datatype FilePick = NoImage | Image(code: Option<string>)

  datatype Event =
    | Start(supported: bool)
    | CameraResolved(answer: CameraAnswer)
    | Frame(refsPresent: bool, ready: bool, decoded: Option<string>, throws: bool)
    | Stop
    | EffectRerun
    | File(pick: FilePick)

  /** `stopScan`: not scanning, frame cancelled, stream stopped and dropped, video source cleared. */
  function StopScan(s: Reader): (r: Reader)
    ensures !r.isScanning && !r.framePending && !r.streamHeld && !r.videoSrcSet
    ensures r.(isScanning := s.isScanning, framePending := s.framePending,
               streamHeld := s.streamHeld, videoSrcSet := s.videoSrcSet) == s
  {
    s.(isScanning := false, framePending := false, streamHeld := false, videoSrcSet := false)
  }

  /** `startCamera` up to the camera request: stop, clear, start; give up at once when the
      browser has no camera interface. */
  function StartCamera(s: Reader, supported: bool): (r: Reader)
    ensures r.result == None
    ensures r.error == if supported then None else Some(CameraUnsupported)
    ensures r.isScanning == supported
    ensures !r.framePending && !r.streamHeld && !r.videoSrcSet
    ensures r.hasCameraPermission == if supported then s.hasCameraPermission else Some(false)
    ensures r.pendingRequests == s.pendingRequests + (if supported then 1 else 0)
    ensures r.orphanStreams == s.orphanStreams && r.effectScanning == s.effectScanning
  {
    var r := StopScan(s).(result := None, error := None, isScanning := true);
    if !supported then r.(error := Some(CameraUnsupported), hasCameraPermission := Some(false), isScanning := false)
    else r.(pendingRequests := r.pendingRequests + 1)
  }

  /** The rest of `startCamera` once the camera request settles. */
  function Resolve(s: Reader, answer: CameraAnswer, fixed: bool): (r: Reader)
    ensures s.pendingRequests == 0 ==> r == s
    ensures s.pendingRequests > 0 ==> r.pendingRequests == s.pendingRequests - 1
    ensures s.pendingRequests > 0 && answer == Denied ==>
              && r.error == Some(CameraUnavailable) && r.hasCameraPermission == Some(false)
              && !r.isScanning && !r.framePending && !r.streamHeld && !r.videoSrcSet
              && r.result == s.result && r.orphanStreams == s.orphanStreams
    ensures r.effectScanning == s.effectScanning
    ensures s.pendingRequests > 0 && answer == Granted ==>
              && r.hasCameraPermission == Some(true)
              && r.isScanning == s.isScanning && r.framePending == s.framePending
              && r.result == s.result && r.error == s.error
    ensures s.pendingRequests > 0 && answer == Granted && !fixed ==>
              && r.streamHeld && r.videoSrcSet
              && r.orphanStreams == s.orphanStreams + (if s.streamHeld then 1 else 0)
    ensures s.pendingRequests > 0 && answer == Granted && fixed ==>
              && r.orphanStreams == s.orphanStreams
              && r.streamHeld == (s.streamHeld || s.isScanning)
              && r.videoSrcSet == (s.videoSrcSet || (s.isScanning && !s.streamHeld))
  {
    if s.pendingRequests == 0 then s
    else
      var r := s.(pendingRequests := s.pendingRequests - 1);
      match answer
      case Granted =>
        if fixed && !(r.isScanning && !r.streamHeld) then r.(hasCameraPermission := Some(true))
        else r.(orphanStreams := r.orphanStreams + (if r.streamHeld then 1 else 0),
                streamHeld := true, videoSrcSet := true, hasCameraPermission := Some(true))
      case Denied =>
        StopScan(r.(error := Some(CameraUnavailable), hasCameraPermission := Some(false)))
  }

  /** The frame decodes a code: the refs are there, the video has enough data (it cannot
      while its source is cleared), reading the pixels did not throw and the decoder found one. */
  predicate Hit(s: Reader, refsPresent: bool, ready: bool, decoded: Option<string>, throws: bool) {
    refsPresent && ready && s.videoSrcSet && !throws && decoded.Some?
  }

  /** `scanQrCode`, run when the scheduled frame fires. */
  function ScanFrame(s: Reader, refsPresent: bool, ready: bool, decoded: Option<string>, throws: bool): (r: Reader)
    ensures !s.framePending ==> r == s
    ensures s.framePending && !refsPresent ==> r == s.(framePending := false)
    ensures s.framePending && refsPresent ==> r.framePending
    ensures s.framePending && Hit(s, refsPresent, ready, decoded, throws) ==>
              && r.result == decoded && r.error == None
              && !r.isScanning && !r.streamHeld && !r.videoSrcSet
              && r.hasCameraPermission == s.hasCameraPermission
              && r.pendingRequests == s.pendingRequests && r.orphanStreams == s.orphanStreams
              && r.effectScanning == s.effectScanning
    ensures s.framePending && refsPresent && !Hit(s, refsPresent, ready, decoded, throws) ==> r == s
  {
    if !s.framePending then s
    else if !refsPresent then s.(framePending := false)
    else
      var r := if Hit(s, refsPresent, ready, decoded, throws)
               then StopScan(s.(result := decoded, error := None)) else s;
      r.(framePending := true)
  }

  /** The scan effect re-running: the previous run's cleanup, then the body with the
      `isScanning` the render saw. */
  function RerunEffect(s: Reader, fixed: bool): (r: Reader)
    ensures r.framePending == s.isScanning && r.effectScanning == s.isScanning
    ensures !fixed ==> !r.isScanning && !r.streamHeld && !r.videoSrcSet
    ensures fixed ==> r.isScanning == s.isScanning && r.streamHeld == s.streamHeld && r.videoSrcSet == s.videoSrcSet
    ensures r.result == s.result && r.error == s.error && r.orphanStreams == s.orphanStreams
    ensures r.hasCameraPermission == s.hasCameraPermission && r.pendingRequests == s.pendingRequests
  {
    var cleaned := if fixed then s.(framePending := false) else StopScan(s);
    cleaned.(framePending := s.isScanning, effectScanning := s.isScanning)
  }

  /** `handleFileSelect`, with the image load and the decode taken as one step. */
  function SelectFile(s: Reader, pick: FilePick): (r: Reader)
    ensures !r.isScanning && !r.framePending && !r.streamHeld && !r.videoSrcSet
    ensures r.result == (if pick.Image? then pick.code else None)
    ensures r.error == (if pick == Image(None) then Some(NoCodeInImage) else None)
    ensures r.hasCameraPermission == s.hasCameraPermission && r.pendingRequests == s.pendingRequests
    ensures r.orphanStreams == s.orphanStreams && r.effectScanning == s.effectScanning
  {
    var r := StopScan(s).(result := None, error := None);
    match pick
    case NoImage => r
    case Image(None) => r.(error := Some(NoCodeInImage))
    case Image(Some(d)) => r.(result := Some(d))
  }

  function Transition(s: Reader, e: Event, fixed: bool): Reader
  {
    match e
    case Start(supported) => StartCamera(s, supported)
    case CameraResolved(answer) => Resolve(s, answer, fixed)
    case Frame(refsPresent, ready, decoded, throws) => ScanFrame(s, refsPresent, ready, decoded, throws)
    case Stop => StopScan(s)
    case EffectRerun => RerunEffect(s, fixed)
    case File(pick) => SelectFile(s, pick)
  }

  /** The events in order, each applied to the state the previous one left. */
  function Run(s: Reader, es: seq<Event>, fixed: bool): Reader
    decreases |es|
  {
    if |es| == 0 then s else Run(Transition(s, es[0], fixed), es[1..], fixed)
  }

  /** `copyResult` copies something only when there is a non-empty result. */
  function CopyResult(s: Reader): (copied: Option<string>)
    ensures copied.None? <==> s.result.None? || s.result == Some("")
    ensures copied.Some? ==> copied == s.result
  {
    if s.result.None? || s.result.value == "" then None else s.result
  }

  /* ------------------------ the React schedule ------------------------ */

  /** A render is owed to the scan effect: `isScanning` changed since it last ran. */
  predicate EffectDue(s: Reader) {
    s.isScanning != s.effectScanning
  }

  /** The effect re-runs until `isScanning` stops changing under it. */
  function Settle(s: Reader, fixed: bool): (r: Reader)
    ensures !EffectDue(r)
    ensures !EffectDue(s) ==> r == s
    ensures EffectDue(s) && !fixed ==> !r.isScanning && !r.framePending && !r.streamHeld
    ensures EffectDue(s) && fixed ==> r.isScanning == s.isScanning && r.framePending == s.isScanning
  {
    if !EffectDue(s) then s
    else
      var t := RerunEffect(s, fixed);
      if EffectDue(t) then RerunEffect(t, fixed) else t
  }

  /** A run where the scan effect re-runs whenever a step changed `isScanning`. */
  function ReactRun(s: Reader, es: seq<Event>, fixed: bool): Reader
    decreases |es|
  {
    if |es| == 0 then s else ReactRun(Settle(Transition(s, es[0], fixed), fixed), es[1..], fixed)
  }

  /* ------------------------------ lemmas ------------------------------ */

  /** Stopping twice is stopping once. */
  lemma StopScanIdempotent(s: Reader)
    ensures StopScan(StopScan(s)) == StopScan(s)
  {
  }

  /** The `requestAnimationFrame` at the end of `scanQrCode` re-arms a frame after a hit; the
      effect re-run that the hit's `isScanning` change causes cancels it, leaving no frame
      pending and no stream. */
  lemma HitThenRerunReleasesAll(s: Reader, code: string, fixed: bool)
    requires s.framePending && s.videoSrcSet
    ensures var t := Transition(s, Frame(true, true, Some(code), false), fixed);
            var u := Transition(t, EffectRerun, fixed);
            && t.framePending && t.result == Some(code) && !t.isScanning
            && !u.framePending && !u.streamHeld && !u.videoSrcSet && u.result == Some(code)
  {
  }

  /** The stream ref and the video source are set and cleared together. */
  lemma StreamMatchesVideo(s: Reader, e: Event, fixed: bool)
    requires s.streamHeld == s.videoSrcSet
    ensures Transition(s, e, fixed).streamHeld == Transition(s, e, fixed).videoSrcSet
  {
  }

  lemma {:induction false} RunStreamMatchesVideo(s: Reader, es: seq<Event>, fixed: bool)
    requires s.streamHeld == s.videoSrcSet
    ensures Run(s, es, fixed).streamHeld == Run(s, es, fixed).videoSrcSet
    decreases |es|
  {
    if |es| > 0 {
      StreamMatchesVideo(s, es[0], fixed);
      RunStreamMatchesVideo(Transition(s, es[0], fixed), es[1..], fixed);
    }
  }

  /** A frame can decode only while the video shows a stream, and only a granted camera
      request sets one: without one, the camera recognises nothing more, whatever else happens. */
  lemma {:induction false} NoRecognitionWithoutGrant(s: Reader, es: seq<Event>, fixed: bool)
    requires !s.videoSrcSet
    requires forall i :: 0 <= i < |es| ==> es[i] != CameraResolved(Granted) && !es[i].File?
    ensures !Run(s, es, fixed).videoSrcSet
    ensures Run(s, es, fixed).result == s.result || Run(s, es, fixed).result.None?
    decreases |es|
  {
    if |es| > 0 {
      var t := Transition(s, es[0], fixed);
      assert !t.videoSrcSet;
      assert t.result == s.result || t.result.None?;
      assert forall i :: 0 <= i < |es[1..]| ==> es[1..][i] == es[i + 1];
      NoRecognitionWithoutGrant(t, es[1..], fixed);
    }
  }

  /* ------------------------ findings: the stream ------------------------ */

  /** As written, the stream is stored on arrival whatever happened meanwhile: a Stop while
      the request is open leaves the camera running with no scan, and a second Start before
      the first answer loses the first stream without stopping it. */
  lemma StreamStoredAfterStop()
    ensures var r := Run(Initial, [Start(true), Stop, CameraResolved(Granted)], false);
            !r.isScanning && r.streamHeld
    ensures Run(Initial, [Start(true), Start(true), CameraResolved(Granted), CameraResolved(Granted)], false)
              .orphanStreams == 1
  {
    var a := Transition(Initial, Start(true), false);
    var b := Transition(a, Stop, false);
    assert Run(Initial, [Start(true), Stop, CameraResolved(Granted)], false)
        == Transition(b, CameraResolved(Granted), false);
    var c := Transition(a, Start(true), false);
    var d := Transition(c, CameraResolved(Granted), false);
    assert Run(Initial, [Start(true), Start(true), CameraResolved(Granted), CameraResolved(Granted)], false)
        == Transition(d, CameraResolved(Granted), false);
  }

  /** Released whenever not scanning, and never lost. */
  predicate StreamAccounted(s: Reader) {
    s.orphanStreams == 0 && (!s.isScanning ==> !s.streamHeld)
  }

  lemma FixedStepAccounts(s: Reader, e: Event)
    requires StreamAccounted(s)
    ensures StreamAccounted(Transition(s, e, true))
  {
  }

  /** With the corrected code every run from the mounted widget accounts for its stream. */
  lemma {:induction false} FixedRunAccounts(s: Reader, es: seq<Event>)
    requires StreamAccounted(s)
    ensures StreamAccounted(Run(s, es, true))
    decreases |es|
  {
    if |es| > 0 {
      FixedStepAccounts(s, es[0]);
      FixedRunAccounts(Transition(s, es[0], true), es[1..]);
    }
  }

  lemma FixedNeverLeaks(es: seq<Event>)
    ensures StreamAccounted(Run(Initial, es, true))
  {
    FixedRunAccounts(Initial, es);
  }

  /* ------------------------ findings: the effect ------------------------ */

  /** As written, the cleanup the scan effect runs when `isScanning` turns true calls
      `stopScan`, so once the effect has caught up after a Start no frame is scheduled. */
  lemma StartNeverArmsFrame(s: Reader)
    ensures !Settle(Transition(s, Start(true), false), false).framePending
  {
  }

  /** ... and from then on no frame is ever scheduled, so the camera recognises nothing:
      only a file pick can change the result. */
  lemma {:induction false} CameraNeverScans(s: Reader, es: seq<Event>)
    requires !s.framePending
    requires forall i :: 0 <= i < |es| ==> es[i] != EffectRerun && !es[i].File?
    ensures !ReactRun(s, es, false).framePending
    ensures ReactRun(s, es, false).result == s.result || ReactRun(s, es, false).result.None?
    decreases |es|
  {
    if |es| > 0 {
      var t := Transition(s, es[0], false);
      assert !t.framePending;
      assert t.result == s.result || t.result.None?;
      var u := Settle(t, false);
      assert u.result == t.result;
      assert forall i :: 0 <= i < |es[1..]| ==> es[1..][i] == es[i + 1];
      CameraNeverScans(u, es[1..]);
    }
  }

  /** With the corrected cleanup a Start from a widget that is not scanning leaves a frame
      scheduled and the scan running. */
  lemma FixedStartArmsFrame(s: Reader)
    requires !s.effectScanning
    ensures var r := Settle(Transition(s, Start(true), true), true);
            r.isScanning && r.framePending
  {
  }

  /** ... and a code in front of the camera is read. */
  lemma FixedCameraReads(code: string)
    ensures ReactRun(Initial, [Start(true), CameraResolved(Granted), Frame(true, true, Some(code), false)], true)
              .result == Some(code)
  {
    var a := Settle(Transition(Initial, Start(true), true), true);
    var b := Settle(Transition(a, CameraResolved(Granted), true), true);
    var c := Settle(Transition(b, Frame(true, true, Some(code), false), true), true);
    assert b.videoSrcSet && b.framePending;
    var es := [Start(true), CameraResolved(Granted), Frame(true, true, Some(code), false)];
    assert es[1..] == [CameraResolved(Granted), Frame(true, true, Some(code), false)];
    assert es[1..][1..] == [Frame(true, true, Some(code), false)];
    assert ReactRun(Initial, es, true) == ReactRun(a, es[1..], true);
    assert ReactRun(a, es[1..], true) == ReactRun(b, es[1..][1..], true);
    assert ReactRun(b, es[1..][1..], true) == c;
  }
}

=== FILE: rate_limiter.dfy ===
/**
 The rate-limit prelude of `summarizeText`: an in-memory map from a caller key
 to the times of its accepted calls, a ten-minute sliding window and a limit
 of three calls in it. The clock reading is a parameter, and the server's
 answer is an oracle: the summary it returned, or None when the request failed
 in any way.
 */
module RateLimiter {
  import opened Wrappers

  const RateLimitCount: nat := 3
  /** Ten minutes in milliseconds. */
  const RateLimitWindow: int := 10 * 60 * 1000
  /** The one key every call is counted under. */
  const ClientKey: string := "client"

  const LimitMessage: string := "شما به حداکثر تعداد درخواست مجاز (۳ بار در ۱۰ دقیقه) رسیده‌اید. لطفاً کمی صبر کنید."
  const FailureMessage: string := "خطا در خلاصه‌سازی متن. لطفاً دوباره تلاش کنید."

  /** Key to the times, in milliseconds, of its accepted calls. */
  type Tracker = map<string, seq<int>>

  /** The list stored under key; a missing key reads as the empty list. */
  function Stored(tracker: Tracker, key: string): (ts: seq<int>)
    ensures key in tracker ==> ts == tracker[key]
    ensures key !in tracker ==> ts == []
  {
    if key in tracker then tracker[key] else []
  }

  /** The calls that still count at `now`: those less than one window old, in their order. */
  function Recent(ts: seq<int>, now: int): (r: seq<int>)
    ensures |r| <= |ts|
    ensures forall i :: 0 <= i < |r| ==> now - r[i] < RateLimitWindow
    ensures forall t :: t in r <==> t in ts && now - t < RateLimitWindow
  {
    if |ts| == 0 then []
    else (if now - ts[0] < RateLimitWindow then [ts[0]] else []) + Recent(ts[1..], now)
  }

  /** Every recent call is kept as often as it occurs: two calls made in the same
      millisecond are both kept, and both count towards the limit. */
  lemma {:induction false} RecentCounts(ts: seq<int>, now: int)
    ensures forall t :: multiset(Recent(ts, now))[t] == if now - t < RateLimitWindow then multiset(ts)[t] else 0
  {
    if |ts| > 0 {
      assert ts == [ts[0]] + ts[1..];
      RecentCounts(ts[1..], now);
    }
  }

  /** Filtering keeps the order of the calls: with RecentAppend, what is kept of one
      call fixes the filter on every list. */
  lemma RecentSingle(t: int, now: int)
    ensures Recent([t], now) == if now - t < RateLimitWindow then [t] else []
  {
    assert [t][1..] == [];
  }

  /** What the prelude decides, and the tracker it leaves. */
  datatype Admission = Admission(accepted: bool, tracker: Tracker)

  /** Filter, check, push: accept when fewer than three calls are recent and record this one. */
  function Admit(tracker: Tracker, key: string, now: int): (a: Admission)
    ensures a.accepted <==> |Recent(Stored(tracker, key), now)| < RateLimitCount
    ensures !a.accepted ==> a.tracker == tracker
    ensures forall k :: k != key ==> (k in a.tracker <==> k in tracker) && Stored(a.tracker, k) == Stored(tracker, k)
  {
    var recent := Recent(Stored(tracker, key), now);
    if |recent| >= RateLimitCount then Admission(false, tracker)
    else Admission(true, tracker[key := recent + [now]])
  }

  datatype Outcome = Summary(text: string) | Failed(message: string)

  /** `summarizeText` with the clock reading and the server's answer as parameters. */
  function SummarizeText(tracker: Tracker, now: int, response: Option<string>): (r: (Tracker, Outcome))
    ensures r.1 == Failed(LimitMessage) || r.1 == Failed(FailureMessage) || (response.Some? && r.1 == Summary(response.value))
  {
    var a := Admit(tracker, ClientKey, now);
    if !a.accepted then (tracker, Failed(LimitMessage))
    else (a.tracker, if response.Some? then Summary(response.value) else Failed(FailureMessage))
  }

  /* ------------------------------ one call ------------------------------ */

  /** An accepted call leaves at most three times under its key, all within the
      window, the newest being this call's. */
  lemma AcceptedKeepsWindow(tracker: Tracker, key: string, now: int)
    requires Admit(tracker, key, now).accepted
    ensures var s := Stored(Admit(tracker, key, now).tracker, key);
            && 0 < |s| <= RateLimitCount && s[|s| - 1] == now
            && (forall i :: 0 <= i < |s| ==> now - s[i] < RateLimitWindow)
            && s[..|s| - 1] == Recent(Stored(tracker, key), now)
  {
    var s := Stored(Admit(tracker, key, now).tracker, key);
    assert s == Recent(Stored(tracker, key), now) + [now];
  }

  /** The quota is spent before the request goes out: the tracker a call leaves is the
      same whatever the server answers. */
  lemma QuotaSpentBeforeFetch(tracker: Tracker, now: int, r1: Option<string>, r2: Option<string>)
    ensures SummarizeText(tracker, now, r1).0 == SummarizeText(tracker, now, r2).0
  {
  }

  /** A call with three recent calls is refused and changes nothing; any failure of an
      accepted call surfaces as one fixed message, the server's own message included. */
  lemma SummarizeOutcomes(tracker: Tracker, now: int, response: Option<string>)
    ensures var recent := Recent(Stored(tracker, ClientKey), now);
            var r := SummarizeText(tracker, now, response);
            && (|recent| >= RateLimitCount <==> r.1 == Failed(LimitMessage))
            && (|recent| >= RateLimitCount ==> r.0 == tracker)
            && (|recent| < RateLimitCount ==>
                  r.1 == (if response.Some? then Summary(response.value) else Failed(FailureMessage)))
            && (forall k :: k != ClientKey ==> Stored(r.0, k) == Stored(tracker, k))
  {
    assert |LimitMessage| != |FailureMessage|;
  }

  /* ------------------------------ the window ------------------------------ */

  lemma {:induction false} RecentAppend(a: seq<int>, b: seq<int>, n: int)
    ensures Recent(a + b, n) == Recent(a, n) + Recent(b, n)
  {
    if |a| == 0 {
      assert a + b == b;
    } else {
      assert (a + b)[1..] == a[1..] + b;
      RecentAppend(a[1..], b, n);
    }
  }

  /** Pruning at one moment and again at a later one is pruning at the later one. */
  lemma {:induction false} RecentLater(ts: seq<int>, now: int, n: int)
    requires now <= n
    ensures Recent(Recent(ts, now), n) == Recent(ts, n)
  {
    if |ts| > 0 {
      RecentLater(ts[1..], now, n);
      var head := if now - ts[0] < RateLimitWindow then [ts[0]] else [];
      RecentAppend(head, Recent(ts[1..], now), n);
    }
  }

  predicate NonDecreasing(times: seq<int>) {
    forall i, j :: 0 <= i < j < |times| ==> times[i] <= times[j]
  }

  /** The tracker after calls at the given times under the client key, and the times
      of the calls it accepted. */
  function Replay(tracker: Tracker, times: seq<int>): (Tracker, seq<int>)
    decreases |times|
  {
    if |times| == 0 then (tracker, [])
    else
      var a := Admit(tracker, ClientKey, times[0]);
      var rest := Replay(a.tracker, times[1..]);
      (rest.0, (if a.accepted then [times[0]] else []) + rest.1)
  }

  /** The stored list answers for the whole log of accepted calls: from the last call
      on, what is recent in one is recent in the other. */
  ghost predicate Summarises(tracker: Tracker, log: seq<int>, last: int) {
    && |Stored(tracker, ClientKey)| <= RateLimitCount
    && forall n :: n >= last ==> Recent(Stored(tracker, ClientKey), n) == Recent(log, n)
  }

  lemma AdmitSummarises(tracker: Tracker, log: seq<int>, last: int, now: int)
    requires last <= now && Summarises(tracker, log, last)
    ensures var a := Admit(tracker, ClientKey, now);
            Summarises(a.tracker, if a.accepted then log + [now] else log, now)
  {
    var a := Admit(tracker, ClientKey, now);
    var s := Stored(tracker, ClientKey);
    if a.accepted {
      assert Stored(a.tracker, ClientKey) == Recent(s, now) + [now];
      forall n | n >= now
        ensures Recent(Stored(a.tracker, ClientKey), n) == Recent(log + [now], n)
      {
        RecentAppend(Recent(s, now), [now], n);
        RecentLater(s, now, n);
        RecentAppend(log, [now], n);
      }
    }
  }

  lemma ReplayCons(tracker: Tracker, times: seq<int>)
    requires |times| > 0
    ensures var a := Admit(tracker, ClientKey, times[0]);
            var rest := Replay(a.tracker, times[1..]);
            && Replay(tracker, times).0 == rest.0
            && Replay(tracker, times).1 == (if a.accepted then [times[0]] else []) + rest.1
  {
  }

  lemma TailOrdered(times: seq<int>, last: int)
    requires |times| > 0 && NonDecreasing(times) && forall i :: 0 <= i < |times| ==> last <= times[i]
    ensures NonDecreasing(times[1..]) && forall i :: 0 <= i < |times[1..]| ==> times[0] <= times[1..][i]
  {
  }

  /** One accepted or refused call in front of a replay adds its time, or nothing, to the log. */
  lemma ReplayCombine(tracker: Tracker, times: seq<int>, log: seq<int>)
    requires |times| > 0
    requires var a := Admit(tracker, ClientKey, times[0]);
             var rest := Replay(a.tracker, times[1..]);
             Summarises(rest.0, (if a.accepted then log + [times[0]] else log) + rest.1,
                        if |times| == 1 then times[0] else times[|times| - 1])
    ensures Summarises(Replay(tracker, times).0, log + Replay(tracker, times).1, times[|times| - 1])
  {
    var a := Admit(tracker, ClientKey, times[0]);
    var rest := Replay(a.tracker, times[1..]);
    ReplayCons(tracker, times);
    assert (if a.accepted then log + [times[0]] else log) + rest.1 == log + Replay(tracker, times).1;
  }

  lemma {:induction false} ReplaySummarises(tracker: Tracker, times: seq<int>, log: seq<int>, last: int)
    requires Summarises(tracker, log, last)
    requires NonDecreasing(times) && forall i :: 0 <= i < |times| ==> last <= times[i]
    ensures var r := Replay(tracker, times);
            Summarises(r.0, log + r.1, if |times| == 0 then last else times[|times| - 1])
    decreases |times|
  {
    if |times| == 0 {
      assert log + [] == log;
    } else {
      var now := times[0];
      var a := Admit(tracker, ClientKey, now);
      AdmitSummarises(tracker, log, last, now);
      TailOrdered(times, last);
      ReplaySummarises(a.tracker, times[1..], if a.accepted then log + [now] else log, now);
      ReplayCombine(tracker, times, log);
    }
  }

  /** The limit the prelude promises: with the clock never running backwards, after any
      sequence of calls at most three accepted ones lie within the last ten minutes, at
      the last call and at every moment after it. */
  lemma AtMostThreePerWindow(times: seq<int>, n: int)
    requires NonDecreasing(times)
    requires |times| > 0 ==> times[|times| - 1] <= n
    ensures |Recent(Replay(map[], times).1, n)| <= RateLimitCount
  {
    var start: Tracker := map[];
    var last := if |times| == 0 then n else times[0];
    assert Summarises(start, [], last);
    ReplaySummarises(start, times, [], last);
    var r := Replay(start, times);
    assert [] + r.1 == r.1;
  }
}

=== FILE: uri_component.dfy ===
/**
 `encodeURIComponent` over scalar values: the characters
 `A-Z a-z 0-9 - _ . ! ~ * ' ( )` pass through, every other character is
 written as the percent-encoded triples (section 2.1 of RFC 3986, upper-case
 hexadecimal digits) of its UTF-8 bytes. `PercentDecode` is an independent
 inverse used to state what the encoding preserves.
 */
module UriComponent {
  import opened Wrappers
  import Utf8

  type byte = Utf8.byte

  /** The characters `encodeURIComponent` leaves as they are. */
  predicate IsUnreserved(c: char) {
    || ('A' <= c <= 'Z') || ('a' <= c <= 'z') || ('0' <= c <= '9')
    || c == '-' || c == '_' || c == '.' || c == '!' || c == '~'
    || c == '*' || c == '\'' || c == '(' || c == ')'
  }

  predicate IsUpperHex(c: char) {
    ('0' <= c <= '9') || ('A' <= c <= 'F')
  }

  /** The upper-case hexadecimal digit for d. */
  function HexDigit(d: nat): (c: char)
    requires d < 16
    ensures IsUpperHex(c)
  {
    if d < 10 then ('0' as int + d) as char else ('A' as int + d - 10) as char
  }

  function HexValue(c: char): (d: nat)
    requires IsUpperHex(c)
    ensures d < 16 && HexDigit(d) == c
  {
    if c <= '9' then c as int - '0' as int else c as int - 'A' as int + 10
  }

  /** The triple `%HH` for one byte. */
  function Escape(b: byte): (t: string)
    ensures |t| == 3 && t[0] == '%' && IsUpperHex(t[1]) && IsUpperHex(t[2])
  {
    ['%', HexDigit(b as nat / 16), HexDigit(b as nat % 16)]
  }

  function EscapeBytes(bs: seq<byte>): (t: string)
    ensures |t| == 3 * |bs|
  {
    if |bs| == 0 then "" else Escape(bs[0]) + EscapeBytes(bs[1..])
  }

  /** t starts with one unit of encoded text: an unreserved character or a `%HH` triple. */
  predicate StartsWithUnit(t: string) {
    |t| > 0 && (IsUnreserved(t[0]) || (|t| >= 3 && t[0] == '%' && IsUpperHex(t[1]) && IsUpperHex(t[2])))
  }

  /** Length of the leading unit. */
  function UnitLength(t: string): (n: nat)
    requires StartsWithUnit(t)
    ensures 1 <= n <= |t|
  {
    if IsUnreserved(t[0]) then 1 else 3
  }

  /** The byte the leading unit stands for. */
  function UnitByte(t: string): byte
    requires StartsWithUnit(t)
  {
    if IsUnreserved(t[0]) then t[0] as int as byte else (16 * HexValue(t[1]) + HexValue(t[2])) as byte
  }

  /** Made only of unreserved characters and `%HH` triples. */
  predicate IsEncoded(t: string)
    decreases |t|
  {
    |t| == 0 || (StartsWithUnit(t) && IsEncoded(t[UnitLength(t)..]))
  }

  /** Whatever follows it, a leading unit stays the same unit. */
  lemma UnitPrefix(a: string, b: string)
    requires StartsWithUnit(a)
    ensures StartsWithUnit(a + b)
    ensures UnitLength(a + b) == UnitLength(a) && UnitByte(a + b) == UnitByte(a)
    ensures (a + b)[UnitLength(a)..] == a[UnitLength(a)..] + b
  {
    assert (a + b)[0] == a[0];
    if !IsUnreserved(a[0]) {
      assert (a + b)[1] == a[1] && (a + b)[2] == a[2];
    }
  }

  /** `encodeURIComponent(s)`. */
  function Encode(s: string): (t: string)
    ensures IsEncoded(t)
    ensures |t| >= |s|
  {
    if |s| == 0 then ""
    else
      var head := if IsUnreserved(s[0]) then [s[0]] else EscapeBytes(Utf8.EncodeChar(s[0]));
      EscapesEncoded(Utf8.EncodeChar(s[0]));
      EncodedAppend(head, Encode(s[1..]));
      head + Encode(s[1..])
  }

  /** Encoded text stays encoded when more encoded text follows. */
  lemma {:induction false} EncodedAppend(a: string, b: string)
    requires IsEncoded(a) && IsEncoded(b)
    ensures IsEncoded(a + b)
    decreases |a|
  {
    if |a| == 0 {
      assert a + b == b;
    } else {
      UnitPrefix(a, b);
      EncodedAppend(a[UnitLength(a)..], b);
    }
  }

  /** A run of triples is encoded text. */
  lemma {:induction false} EscapesEncoded(bs: seq<byte>)
    ensures IsEncoded(EscapeBytes(bs))
  {
    if |bs| > 0 {
      EscapesEncoded(bs[1..]);
      assert (Escape(bs[0]) + EscapeBytes(bs[1..]))[3..] == EscapeBytes(bs[1..]);
    }
  }

  /** Decoding of unreserved characters and `%HH` triples to the bytes they stand
      for (section 2.1 of RFC 3986). */
  function PercentDecode(t: string): (bs: seq<byte>)
    requires IsEncoded(t)
    decreases |t|
  {
    if |t| == 0 then [] else [UnitByte(t)] + PercentDecode(t[UnitLength(t)..])
  }

  /** Percent-decoding, then reading the bytes as UTF-8 (no byte order mark
      handling); None for text that is not percent-encoded. */
  function DecodeComponent(t: string): Option<string>
  {
    if IsEncoded(t) then Some(Utf8.DecodeStream(PercentDecode(t))) else None
  }

  /** Decoding a non-empty encoded text takes its leading unit first. */
  lemma PercentDecodeCons(t: string)
    requires StartsWithUnit(t) && IsEncoded(t[UnitLength(t)..])
    ensures IsEncoded(t) && PercentDecode(t) == [UnitByte(t)] + PercentDecode(t[UnitLength(t)..])
  {
  }

  /** Decoding distributes over the concatenation of encoded texts. */
  lemma {:induction false} PercentDecodeAppend(a: string, b: string)
    requires IsEncoded(a) && IsEncoded(b)
    ensures IsEncoded(a + b) && PercentDecode(a + b) == PercentDecode(a) + PercentDecode(b)
    decreases |a|
  {
    if |a| == 0 {
      assert a + b == b;
    } else {
      var n := UnitLength(a);
      UnitPrefix(a, b);
      PercentDecodeAppend(a[n..], b);
      PercentDecodeCons(a + b);
    }
  }

  /** The triples of a byte sequence decode to that byte sequence. */
  lemma {:induction false} PercentDecodeEscapes(bs: seq<byte>)
    ensures IsEncoded(EscapeBytes(bs)) && PercentDecode(EscapeBytes(bs)) == bs
  {
    if |bs| > 0 {
      var e := Escape(bs[0]);
      var t := EscapeBytes(bs);
      PercentDecodeEscapes(bs[1..]);
      assert t == e + EscapeBytes(bs[1..]);
      assert t[0] == '%' && t[1] == e[1] && t[2] == e[2];
      assert t[3..] == EscapeBytes(bs[1..]);
      assert 16 * HexValue(e[1]) + HexValue(e[2]) == bs[0] as nat;
    }
  }

  /** Percent-decoding the encoding of s gives its UTF-8 bytes. */
  lemma {:induction false} PercentDecodeEncode(s: string)
    ensures PercentDecode(Encode(s)) == Utf8.Encode(s)
  {
    if |s| > 0 {
      var head := if IsUnreserved(s[0]) then [s[0]] else EscapeBytes(Utf8.EncodeChar(s[0]));
      PercentDecodeEncode(s[1..]);
      if IsUnreserved(s[0]) {
        assert head[1..] == [];
        assert PercentDecode(head) == [s[0] as int as byte];
        assert Utf8.EncodeChar(s[0]) == [s[0] as int as byte];
      } else {
        PercentDecodeEscapes(Utf8.EncodeChar(s[0]));
      }
      PercentDecodeAppend(head, Encode(s[1..]));
    }
  }

  /** `decodeURIComponent` undoes `encodeURIComponent`: nothing is lost. */
  lemma DecodeEncode(s: string)
    ensures DecodeComponent(Encode(s)) == Some(s)
  {
    PercentDecodeEncode(s);
    Utf8.DecodeStreamEncode(s);
  }

  /** Every character of an encoded string is unreserved or the `%` of a triple,
      so a space, a line break, `&` or `=` never appears raw. */
  lemma {:induction false} EncodedAlphabet(t: string)
    requires IsEncoded(t)
    ensures forall i :: 0 <= i < |t| ==> IsUnreserved(t[i]) || t[i] == '%'
    decreases |t|
  {
    if |t| > 0 {
      if IsUnreserved(t[0]) {
        EncodedAlphabet(t[1..]);
        assert forall i :: 1 <= i < |t| ==> t[i] == t[1..][i - 1];
      } else {
        EncodedAlphabet(t[3..]);
        assert forall i :: 3 <= i < |t| ==> t[i] == t[3..][i - 3];
      }
    }
  }

  /** A string made only of unreserved characters is its own encoding. */
  lemma {:induction false} EncodeUnreserved(s: string)
    requires forall i :: 0 <= i < |s| ==> IsUnreserved(s[i])
    ensures Encode(s) == s
  {
    if |s| > 0 {
      EncodeUnreserved(s[1..]);
    }
  }

  /** Encoding works character by character, so it distributes over concatenation. */
  lemma {:induction false} EncodeAppend(a: string, b: string)
    ensures Encode(a + b) == Encode(a) + Encode(b)
  {
    if |a| == 0 {
      assert a + b == b;
    } else {
      assert (a + b)[0] == a[0];
      assert (a + b)[1..] == a[1..] + b;
      EncodeAppend(a[1..], b);
    }
  }

  /** A space becomes "%20" wherever it stands, as in "Hi there" becoming "Hi%20there". */
  lemma EncodeSpace(a: string, b: string)
    ensures Encode(a + " " + b) == Encode(a) + "%20" + Encode(b)
  {
    EncodeAppend(a + " ", b);
    EncodeAppend(a, " ");
    EncodeSpaceAlone();
  }

  lemma EncodeSpaceAlone()
    ensures Encode(" ") == "%20"
  {
    assert Utf8.EncodeChar(' ') == [32 as byte];
  }

  /** A line feed becomes "%0A" wherever it stands. */
  lemma EncodeLineFeed(a: string, b: string)
    ensures Encode(a + "\n" + b) == Encode(a) + "%0A" + Encode(b)
  {
    EncodeAppend(a + "\n", b);
    EncodeAppend(a, "\n");
    EncodeLineFeedAlone();
  }

  lemma EncodeLineFeedAlone()
    ensures Encode("\n") == "%0A"
  {
    assert Utf8.EncodeChar('\n') == [10 as byte];
  }
}

=== FILE: utf8.dfy ===
/**
 UTF-8 as the browser's `TextEncoder` and `TextDecoder('utf-8')` implement it.

 Encoding follows section 3 of RFC 3629 over Dafny's `char`, which is a
 Unicode scalar value (so no lone surrogate can reach the encoder).
 Decoding follows the UTF-8 decoder of the WHATWG Encoding Standard in
 replacement mode: every maximal ill-formed subpart becomes one U+FFFD, and
 `decode` drops a leading U+FEFF (byte order mark).
 */
module Utf8 {

  newtype byte = x: int | 0 <= x < 256

  /** U+FFFD, emitted in place of an ill-formed sequence. */
  const Replacement: char := '\U{FFFD}'

  /** U+FEFF, stripped from the front of the decoder's output. */
  const ByteOrderMark: char := '\U{FEFF}'

  /* ----------------------------- encoder ----------------------------- */

  /** Number of bytes section 3 of RFC 3629 spends on the scalar value c. */
  function Width(c: char): (n: nat)
    ensures 1 <= n <= 4
  {
    var v := c as int;
    if v < 0x80 then 1 else if v < 0x800 then 2 else if v < 0x10000 then 3 else 4
  }

  /** A continuation byte `10xxxxxx` carrying the low six bits of v. */
  function Cont(v: nat): (b: byte)
    ensures 0x80 <= b <= 0xBF
  {
    (0x80 + v % 64) as byte
  }

  /** The UTF-8 byte sequence of one scalar value. */
  function EncodeChar(c: char): (bs: seq<byte>)
    ensures |bs| == Width(c)
  {
    var v := c as int;
    if v < 0x80 then [v as byte]
    else if v < 0x800 then [(0xC0 + v / 64) as byte, Cont(v)]
    else if v < 0x10000 then [(0xE0 + v / 4096) as byte, Cont(v / 64), Cont(v)]
    else [(0xF0 + v / 262144) as byte, Cont(v / 4096), Cont(v / 64), Cont(v)]
  }

  /** `TextEncoder.encode`: the concatenated UTF-8 sequences of the characters of s. */
  function Encode(s: string): (bs: seq<byte>)
    ensures |bs| >= |s|
    ensures |bs| == 0 <==> |s| == 0
  {
    if |s| == 0 then [] else EncodeChar(s[0]) + Encode(s[1..])
  }

  /* ----------------------------- decoder ----------------------------- */

  /** Continuation bytes a lead byte announces; 0 for a byte that cannot start a multi-byte sequence. */
  function Expected(lead: byte): (n: nat)
    ensures n <= 3
  {
    if 0xC2 <= lead <= 0xDF then 1
    else if 0xE0 <= lead <= 0xEF then 2
    else if 0xF0 <= lead <= 0xF4 then 3
    else 0
  }

  /** Smallest byte the decoder accepts right after the lead byte (rules out overlong forms). */
  function Lower(lead: byte): byte {
    if lead == 0xE0 then 0xA0 else if lead == 0xF0 then 0x90 else 0x80
  }

  /** Largest byte the decoder accepts right after the lead byte (rules out surrogates and values past U+10FFFF). */
  function Upper(lead: byte): byte {
    if lead == 0xED then 0x9F else if lead == 0xF4 then 0x8F else 0xBF
  }

  /** How many bytes after bs[0] the decoder accepts as continuation bytes before it
      meets a byte out of range, the end of the input, or the announced count need. */
  function Accepted(bs: seq<byte>, need: nat): (k: nat)
    requires |bs| >= 1 && need <= 3
    ensures k <= need && k < |bs|
    ensures k >= 1 ==> Lower(bs[0]) <= bs[1] <= Upper(bs[0])
    ensures forall j :: 2 <= j <= k ==> 0x80 <= bs[j] <= 0xBF
  {
    if need >= 1 && |bs| > 1 && Lower(bs[0]) <= bs[1] <= Upper(bs[0]) then
      if need >= 2 && |bs| > 2 && 0x80 <= bs[2] <= 0xBF then
        if need >= 3 && |bs| > 3 && 0x80 <= bs[3] <= 0xBF then 3 else 2
      else 1
    else 0
  }

  /** The code point assembled from a complete, accepted sequence of need + 1 bytes. */
  function Scalar(bs: seq<byte>, need: nat): (v: int)
    requires |bs| >= 1 && 1 <= need <= 3 && Expected(bs[0]) == need && Accepted(bs, need) == need
    ensures 0 <= v < 0xD800 || 0xE000 <= v < 0x110000
    ensures need == 1 ==> 0x80 <= v < 0x800
    ensures need == 2 ==> 0x800 <= v < 0x10000
    ensures need == 3 ==> 0x10000 <= v
  {
    if need == 1 then
      (bs[0] as int - 0xC0) * 64 + (bs[1] as int - 0x80)
    else if need == 2 then
      (bs[0] as int - 0xE0) * 4096 + (bs[1] as int - 0x80) * 64 + (bs[2] as int - 0x80)
    else
      (bs[0] as int - 0xF0) * 262144 + (bs[1] as int - 0x80) * 4096
        + (bs[2] as int - 0x80) * 64 + (bs[3] as int - 0x80)
  }

  /** One round of the decoder on a non-empty input: the character it emits and
      how many bytes it consumes. On an error the byte that broke the sequence is
      not consumed, so it starts the next round. */
  function DecodeStep(bs: seq<byte>): (r: (char, nat))
    requires |bs| >= 1
    ensures 1 <= r.1 <= |bs|
  {
    if bs[0] < 0x80 then (bs[0] as int as char, 1)
    else
      var need := Expected(bs[0]);
      if need == 0 then (Replacement, 1)
      else
        var k := Accepted(bs, need);
        if k < need then (Replacement, 1 + k)
        else (Scalar(bs, need) as char, need + 1)
  }

  /** The decoder's output stream before the byte order mark is considered. */
  function DecodeStream(bs: seq<byte>): (s: string)
    ensures |s| <= |bs|
    ensures |s| == 0 <==> |bs| == 0
    decreases |bs|
  {
    if |bs| == 0 then []
    else
      var r := DecodeStep(bs);
      [r.0] + DecodeStream(bs[r.1..])
  }

  /** `new TextDecoder('utf-8').decode(bs)`: decode, then drop one leading byte order mark. */
  function Decode(bs: seq<byte>): (s: string)
    ensures |s| <= |bs|
  {
    var cs := DecodeStream(bs);
    if |cs| > 0 && cs[0] == ByteOrderMark then cs[1..] else cs
  }

  /* ------------------------------ lemmas ------------------------------ */

  /** Splits v into its quotient and remainder by 64 twice; the solver does not find these alone. */
  lemma DivMod64(v: nat)
    ensures (v / 64) / 64 == v / 4096 && (v / 64) % 64 == (v % 4096) / 64
    ensures (v / 4096) / 64 == v / 262144 && (v / 4096) % 64 == (v % 262144) / 4096
  {
    var q := v / 4096;
    var r := v % 4096;
    assert v == 64 * (64 * q + r / 64) + r % 64;
    var q' := v / 262144;
    var r' := v % 262144;
    assert v == 4096 * (64 * q' + r' / 4096) + r' % 4096;
  }

  lemma DecodeStepTwoBytes(c: char, rest: seq<byte>)
    requires 0x80 <= c as int < 0x800
    ensures DecodeStep(EncodeChar(c) + rest) == (c, 2)
    ensures Expected(EncodeChar(c)[0]) == 1 && Accepted(EncodeChar(c) + rest, 1) == 1
  {
    var v := c as int;
    var bs := EncodeChar(c) + rest;
    DivMod64(v);
    assert bs[0] as int == 0xC0 + v / 64 && bs[1] as int == 0x80 + v % 64;
    assert Expected(bs[0]) == 1;
    assert Accepted(bs, 1) == 1;
    assert Scalar(bs, 1) == v;
  }

  lemma DecodeStepThreeBytes(c: char, rest: seq<byte>)
    requires 0x800 <= c as int < 0x10000
    ensures DecodeStep(EncodeChar(c) + rest) == (c, 3)
    ensures Expected(EncodeChar(c)[0]) == 2 && Accepted(EncodeChar(c) + rest, 2) == 2
  {
    var v := c as int;
    var bs := EncodeChar(c) + rest;
    DivMod64(v);
    assert bs[0] as int == 0xE0 + v / 4096;
    assert bs[1] as int == 0x80 + (v / 64) % 64;
    assert bs[2] as int == 0x80 + v % 64;
    assert Expected(bs[0]) == 2;
    assert Lower(bs[0]) <= bs[1] <= Upper(bs[0]);
    assert Accepted(bs, 2) == 2;
    assert Scalar(bs, 2) == v;
  }

  lemma DecodeStepFourBytes(c: char, rest: seq<byte>)
    requires 0x10000 <= c as int
    ensures DecodeStep(EncodeChar(c) + rest) == (c, 4)
    ensures Expected(EncodeChar(c)[0]) == 3 && Accepted(EncodeChar(c) + rest, 3) == 3
  {
    var v := c as int;
    var bs := EncodeChar(c) + rest;
    DivMod64(v);
    assert bs[0] as int == 0xF0 + v / 262144;
    assert bs[1] as int == 0x80 + (v / 4096) % 64;
    assert bs[2] as int == 0x80 + (v / 64) % 64;
    assert bs[3] as int == 0x80 + v % 64;
    assert Expected(bs[0]) == 3;
    assert Lower(bs[0]) <= bs[1] <= Upper(bs[0]);
    assert Accepted(bs, 3) == 3;
    assert Scalar(bs, 3) == v;
  }

  /** The decoder reads back exactly the character the encoder wrote, whatever follows it. */
  lemma DecodeStepEncodeChar(c: char, rest: seq<byte>)
    ensures DecodeStep(EncodeChar(c) + rest) == (c, Width(c))
  {
    var v := c as int;
    if v < 0x80 {
    } else if v < 0x800 {
      DecodeStepTwoBytes(c, rest);
    } else if v < 0x10000 {
      DecodeStepThreeBytes(c, rest);
    } else {
      DecodeStepFourBytes(c, rest);
    }
  }

  /** A two-byte sequence the decoder accepts is the encoding of the value it assembles. */
  lemma ReencodeTwo(bs: seq<byte>)
    requires |bs| >= 2 && Expected(bs[0]) == 1 && Accepted(bs, 1) == 1
    ensures EncodeChar(Scalar(bs, 1) as char) == bs[..2]
  {
    var v := Scalar(bs, 1);
    var b0, b1 := bs[0] as int, bs[1] as int;
    assert v == 64 * (b0 - 0xC0) + (b1 - 0x80);
    assert v / 64 == b0 - 0xC0 && v % 64 == b1 - 0x80;
  }

  /** A three-byte sequence the decoder accepts is the encoding of the value it assembles. */
  lemma ReencodeThree(bs: seq<byte>)
    requires |bs| >= 3 && Expected(bs[0]) == 2 && Accepted(bs, 2) == 2
    ensures EncodeChar(Scalar(bs, 2) as char) == bs[..3]
  {
    var v := Scalar(bs, 2);
    var b0, b1, b2 := bs[0] as int, bs[1] as int, bs[2] as int;
    var low := 64 * (b1 - 0x80) + (b2 - 0x80);
    assert v == 4096 * (b0 - 0xE0) + low && 0 <= low < 4096;
    assert v / 4096 == b0 - 0xE0;
    assert v / 64 == 64 * (b0 - 0xE0) + (b1 - 0x80);
    assert (v / 64) % 64 == b1 - 0x80;
    assert v % 64 == b2 - 0x80;
  }

  /** A four-byte sequence the decoder accepts is the encoding of the value it assembles. */
  lemma ReencodeFour(bs: seq<byte>)
    requires |bs| >= 4 && Expected(bs[0]) == 3 && Accepted(bs, 3) == 3
    ensures EncodeChar(Scalar(bs, 3) as char) == bs[..4]
  {
    var v := Scalar(bs, 3);
    var b0, b1, b2, b3 := bs[0] as int, bs[1] as int, bs[2] as int, bs[3] as int;
    var low := 4096 * (b1 - 0x80) + 64 * (b2 - 0x80) + (b3 - 0x80);
    assert v == 262144 * (b0 - 0xF0) + low && 0 <= low < 262144;
    assert v / 262144 == b0 - 0xF0;
    assert v / 4096 == 64 * (b0 - 0xF0) + (b1 - 0x80);
    assert (v / 4096) % 64 == b1 - 0x80;
    assert v / 64 == 4096 * (b0 - 0xF0) + 64 * (b1 - 0x80) + (b2 - 0x80);
    assert (v / 64) % 64 == b2 - 0x80;
    assert v % 64 == b3 - 0x80;
  }

  /** Conversely, every character the decoder produces from well-formed input is
      the character whose encoding it consumed: apart from U+FFFD for an error,
      the decoder accepts exactly the encoder's byte sequences. */
  lemma DecodeStepIsEncoding(bs: seq<byte>)
    requires |bs| >= 1
    ensures var r := DecodeStep(bs);
            r.0 == Replacement || (r.1 == Width(r.0) && EncodeChar(r.0) == bs[..r.1])
  {
    if bs[0] >= 0x80 && Expected(bs[0]) > 0 && Accepted(bs, Expected(bs[0])) == Expected(bs[0]) {
      var need := Expected(bs[0]);
      if need == 1 {
        ReencodeTwo(bs);
      } else if need == 2 {
        ReencodeThree(bs);
      } else {
        ReencodeFour(bs);
      }
    }
  }

  /** p is the beginning of the encoding of some character. */
  ghost predicate BeginsEncoding(p: seq<byte>) {
    exists c: char :: p <= EncodeChar(c)
  }

  /** The encoding of a character that needs more than one byte opens with a lead byte
      announcing exactly its continuation bytes, all of which the decoder accepts. */
  lemma EncodeCharShape(c: char)
    requires Width(c) >= 2
    ensures var e := EncodeChar(c);
            && e[0] >= 0x80 && Expected(e[0]) == Width(c) - 1
            && Accepted(e, Width(c) - 1) == Width(c) - 1
  {
    var e := EncodeChar(c);
    assert e + [] == e;
    var v := c as int;
    if v < 0x800 {
      DecodeStepTwoBytes(c, []);
    } else if v < 0x10000 {
      DecodeStepThreeBytes(c, []);
    } else {
      DecodeStepFourBytes(c, []);
    }
  }

  /** Where the decoder stops accepting before the announced length, the next byte is out of range. */
  lemma AcceptedStops(bs: seq<byte>, need: nat)
    requires |bs| >= 1 && 1 <= need <= 3
    requires Accepted(bs, need) < need && Accepted(bs, need) + 1 < |bs|
    ensures Accepted(bs, need) == 0 ==> !(Lower(bs[0]) <= bs[1] <= Upper(bs[0]))
    ensures Accepted(bs, need) >= 1 ==> !(0x80 <= bs[Accepted(bs, need) + 1] <= 0xBF)
  {
  }

  /** The bytes an error step consumes after a valid lead byte begin a real encoding:
      padding them with continuation bytes up to the announced length gives one. */
  lemma ErrorPrefixBegins(bs: seq<byte>)
    requires |bs| >= 1 && 1 <= Expected(bs[0])
    requires 1 <= Accepted(bs, Expected(bs[0])) < Expected(bs[0])
    ensures BeginsEncoding(bs[..1 + Accepted(bs, Expected(bs[0]))])
  {
    var need := Expected(bs[0]);
    var k := Accepted(bs, need);
    var full := bs[..k + 1] + seq(need - k, _ => 0x80 as byte);
    assert |full| == need + 1 && full[0] == bs[0] && full[1] == bs[1];
    assert forall j :: 2 <= j <= need ==> 0x80 <= full[j] <= 0xBF;
    assert Accepted(full, need) == need;
    if need == 2 {
      ReencodeThree(full);
    } else {
      ReencodeFour(full);
    }
    assert full[..need + 1] == full;
    var c := Scalar(full, need) as char;
    assert bs[..k + 1] == full[..k + 1];
    assert bs[..k + 1] <= EncodeChar(c);
  }

  /** The byte after those an error step consumes cannot continue them into any encoding. */
  lemma ErrorStopsBeginning(bs: seq<byte>, c: char)
    requires |bs| >= 1 && bs[0] >= 0x80
    requires Expected(bs[0]) == 0 || Accepted(bs, Expected(bs[0])) < Expected(bs[0])
    requires 2 + (if Expected(bs[0]) == 0 then 0 else Accepted(bs, Expected(bs[0]))) <= |bs|
    ensures !(bs[..2 + (if Expected(bs[0]) == 0 then 0 else Accepted(bs, Expected(bs[0])))] <= EncodeChar(c))
  {
    var need := Expected(bs[0]);
    var m := 2 + (if need == 0 then 0 else Accepted(bs, need));
    var e := EncodeChar(c);
    if |e| >= m {
      EncodeCharShape(c);
      if Expected(e[0]) == need {
        var k := Accepted(bs, need);
        AcceptedStops(bs, need);
        if k == 0 {
          assert e[0] != bs[0] || e[1] != bs[1];
        } else {
          assert e[k + 1] != bs[k + 1];
        }
      } else {
        assert e[0] != bs[0];
      }
    }
  }

  /** Each step of the decoder either consumes the encoding of the character it yields, or
      yields U+FFFD for a maximal ill-formed subpart: the bytes it consumes are a lone
      offending byte or the beginning of some encoding, and no encoding begins with them
      and the byte that follows. */
  lemma DecodeStepMaximalSubpart(bs: seq<byte>)
    requires |bs| >= 1
    ensures var r := DecodeStep(bs);
            || EncodeChar(r.0) == bs[..r.1]
            || (&& r.0 == Replacement
                && (r.1 == 1 || BeginsEncoding(bs[..r.1]))
                && (r.1 < |bs| ==> !BeginsEncoding(bs[..r.1 + 1])))
  {
    var need := Expected(bs[0]);
    if bs[0] < 0x80 {
    } else if need > 0 && Accepted(bs, need) == need {
      if need == 1 {
        ReencodeTwo(bs);
      } else if need == 2 {
        ReencodeThree(bs);
      } else {
        ReencodeFour(bs);
      }
    } else {
      var r := DecodeStep(bs);
      if r.1 > 1 {
        ErrorPrefixBegins(bs);
      }
      if r.1 < |bs| {
        forall c: char
          ensures !(bs[..r.1 + 1] <= EncodeChar(c))
        {
          ErrorStopsBeginning(bs, c);
        }
      }
    }
  }

  /** Two ill-formed inputs as the WHATWG decoder treats them: a truncated three-byte
      sequence costs one U+FFFD and the byte that broke it is decoded afresh, while an
      overlong two-byte form costs one U+FFFD per byte. */
  lemma ReplacementExamples()
    ensures DecodeStream([0xE0 as byte, 0xA0, 0x41]) == [Replacement, 'A']
    ensures DecodeStream([0xC0 as byte, 0x80]) == [Replacement, Replacement]
  {
    var a: seq<byte> := [0xE0, 0xA0, 0x41];
    assert DecodeStep(a) == (Replacement, 2);
    assert a[2..] == [0x41];
    var b: seq<byte> := [0xC0, 0x80];
    assert DecodeStep(b) == (Replacement, 1);
    assert b[1..] == [0x80];
  }

  /** Decoding the encoding of any string, before byte-order-mark handling, gives the string back. */
  lemma {:induction false} DecodeStreamEncode(s: string)
    ensures DecodeStream(Encode(s)) == s
  {
    if |s| > 0 {
      var head := EncodeChar(s[0]);
      var tail := Encode(s[1..]);
      DecodeStepEncodeChar(s[0], tail);
      assert (head + tail)[|head|..] == tail;
      DecodeStreamEncode(s[1..]);
    }
  }

  /** `TextDecoder` inverts `TextEncoder` on every string that does not begin with U+FEFF. */
  lemma DecodeEncode(s: string)
    requires |s| == 0 || s[0] != ByteOrderMark
    ensures Decode(Encode(s)) == s
  {
    DecodeStreamEncode(s);
  }

  /** A string that does begin with U+FEFF loses it on the way back. */
  lemma DecodeEncodeDropsMark(s: string)
    requires |s| > 0 && s[0] == ByteOrderMark
    ensures Decode(Encode(s)) == s[1..]
  {
    DecodeStreamEncode(s);
  }

  /** Encoding distributes over concatenation. */
  lemma {:induction false} EncodeAppend(a: string, b: string)
    ensures Encode(a + b) == Encode(a) + Encode(b)
  {
    if |a| > 0 {
      assert (a + b)[1..] == a[1..] + b;
      EncodeAppend(a[1..], b);
    } else {
      assert a + b == b;
    }
  }
}

=== FILE: wrappers.dfy ===
/** Optional values shared by the other modules. */
module Wrappers {

  /** A value that may be absent: a JavaScript `null`/`undefined` on the other side. */
  datatype Option<+T> = None | Some(value: T) {

    /** Returns the value held in Some, or the given default when None. */
    function GetOr(default: T): T {
      match this
      case Some(v) => v
      case None => default
    }
  }
}
